=== FILE: README.md ===
# thor: a verified model of the optimistic-concurrency transaction store

thor is a sharded, transactional object store built on actors. A client asks
its **clerk** to read a set of object ids. The clerk resolves which **server**
(shard) holds each id from its copy of the shard map that the **directory
server** pushes to it. It then creates an **aggregator** that scatters the
read to the owning shards and gathers their replies. The client edits the
transaction and asks the clerk to commit. The clerk timestamps it and drives
a prepare round: each shard certifies the transaction against its history of
prepared transactions. If every shard votes yes, the clerk drives a commit
round, and the shards apply the writes and tell subscribed clerks to evict
their cached copies. Otherwise the clerk sends abort to the shards that voted
yes and answers the client false.

The model follows the program's structure, one Dafny module per component:

- `Types`: the `Transaction` record, messages, and the outbox a handler produces.
- `Naming`: transaction ids and aggregator names.
- `History`: the shard's sorted history of prepared transactions.
- `Server`: the shard handlers View, get_objects, prepare_trx, commit_trx
  and abort_trx.
- `Directory`: the directory server handlers RegisterListener and WhoServes.
- `Aggregator`: Scatter and Gather.
- `Clerk`: every clerk handler.

Every handler is a pure function from the old state and the message to the
new state and the messages sent. Sends are collected as a multiset, so
their order is not kept (see "## Left out"). The wall
clock reading that `start_prepare` takes is a parameter `now`.

Where the source raises (a missing dict key, an absent history entry), the
model puts a precondition. One exception is the shard map being incomplete
(`NotCached`). The clerk catches it for queued reads, so the model turns it
into a `Pending` result that the retry queue consumes.

Points where the code makes a choice worth noting:

- The history is split with `bisect_key_left`. An entry with the same
  timestamp as the transaction being prepared therefore counts as *later*,
  not as neither earlier nor later.
- A commit *assigns* the transaction's timestamp as the read stamp of every
  oid it read or wrote. It does not take the maximum with the old stamp.
  This includes written oids.
- The aggregator's per-shard copy resets the status to Reading instead of
  keeping it, and drops the clerk address (see Findings). The modelled
  aggregator sends the corrected copy, which keeps the address
  (`Aggregator.Restrict`).
- Commit and abort find the history entry by tid among the entries with the
  transaction's timestamp only. A commit whose timestamp differs from the
  prepared entry's is answered false.
- The clerk routes prepare and commit by the read set only. A written oid
  outside the read set therefore reaches no shard
  (`Clerk.WritesOutsideReadSetReachNoShard`).
- A read whose oids are all cached starts anyway, with an empty shard map.
  Its aggregator then never gathers, so that read is never answered
  (`Clerk.AllCachedReadAsksNoShard`). This is a liveness defect of
  thor/clerk.py:108-114 rather than a choice; the model keeps it as written.
- `commit_done` answers true whatever the shards replied.
- The `Transaction` class in thor/utils.py takes four constructor arguments,
  but thor/clerk.py:105 passes a fifth one, the clerk address, and
  thor/actors.py:64 reads it back. The model treats the clerk address as a
  field of the record (`Transaction.clerk`).

## Model

| member | source | states |
|---|---|---|
| Types.NewTransaction | thor/utils.py:51-57 | a new transaction carries exactly the tid, read set, write set and timestamp it is given, and starts in status Reading |
| Types.Broadcast | thor/actors.py:173-174 | sending one message to every entry of a list: each address receives it once per occurrence in the list; the total equals the list length; nothing else is sent |
| Types.Merge | thor/actors.py:172 | `dict.update` on a shard map: the keys are the union, the update's assignment wins, and every other assignment is kept |
| Naming.DecimalInjective | thor/clerk.py:105 | different counter values have different decimal numerals |
| Naming.Tid | thor/clerk.py:105 | a tid is the clerk's name, then `-trx-`, then the counter's numeral |
| Naming.TidInjective | thor/clerk.py:105-106 | one clerk never gives two counter values the same tid |
| Naming.AggregatorName | thor/clerk.py:112 | an aggregator's global name is `aggregator-`, then the tid, then `-` and the phase letter |
| History.BisectLeft | thor/actors.py:76-78 | every entry before the split point has a smaller timestamp, and every entry from it on has an equal or larger one |
| History.BisectRight | thor/actors.py:111 | every entry before the insertion point has a timestamp that is not larger, and every entry after it has a larger one |
| History.Insert | thor/actors.py:111 | the sorted list's `add`: the result is sorted, one entry longer, and holds exactly the old entries plus the new one, spliced in at one position: after every entry whose timestamp is not larger and before every entry whose timestamp is larger (`bisect_right`) |
| History.IndexOf | thor/actors.py:119 | `index` searches only the entries with the argument's timestamp: it finds nothing exactly when no entry has both the tid and that timestamp; otherwise it returns the first such entry |
| History.Remove | thor/actors.py:145 | `remove` drops exactly the entry `index` finds (same tid, same timestamp), and keeps the history sorted |
| History.RemoveUndoesInsert | thor/actors.py:145 | removing an entry just added, when no entry had its tid under its timestamp before, gives back the original history |
| Server.Init | thor/actors.py:37-41 | a new shard has an empty store, no subscribers and an empty history, and the history invariant holds |
| Server.View | thor/actors.py:53-56 | the store becomes exactly the given keys, each at (0, 0, 0); subscribers and history are unchanged |
| Server.ViewIdempotent | thor/actors.py:55 | applying the same View twice equals applying it once |
| Server.GetObjects | thor/actors.py:58-65 | replies with the (value, version) of exactly the read oids, without the read stamp; the requesting clerk is appended to each read oid's subscribers and to no other oid's; store and history are unchanged |
| Server.Prepare | thor/actors.py:73-113 | answers false exactly when there is an earlier write to a read oid, a read oid whose version moved or whose read stamp exceeds the timestamp, or a later read/write conflict in either direction; on false nothing changes; on true the history gains exactly the transaction in status Preparing; the history stays sorted and all-prepared |
| Server.InsertKeepsOk | thor/actors.py:110-111 | inserting a stamped, prepared entry keeps the history sorted and every entry prepared |
| Server.EarlierSplit | thor/actors.py:76-87 | the backward check over the prefix before `bisect_key_left` finds a conflict exactly when some entry with a smaller timestamp writes a read oid |
| Server.LaterSplit | thor/actors.py:100-108 | the forward check over the suffix finds a conflict exactly when some entry with an equal or larger timestamp conflicts in either direction |
| Server.Invalidations | thor/actors.py:130-136 | each subscriber of each written oid is sent one CacheInvalidate per subscription, for that oid, and nothing else is sent |
| Server.Commit | thor/actors.py:115-140 | without a prepared history entry that `index` finds (the tid under the transaction's timestamp; an entry with the tid under another timestamp is not found): false, no change, no sends; otherwise: true; a written oid gets (new value, version + 1, timestamp); a read-only oid keeps value and version and gets the timestamp as read stamp; other oids are unchanged; written oids' subscriber lists are emptied, each subscriber is sent one invalidation, and the entry leaves the history |
| Server.Abort | thor/actors.py:142-146 | answers true, removes exactly the entry with the tid under the transaction's timestamp, and leaves store and subscribers unchanged; the history invariant is kept |
| Server.Receive | thor/actors.py:43-56 | an Objects, Prepare, Commit or Abort request gives exactly the state and result of get_objects, prepare_trx, commit_trx or abort_trx, with the result sent back to the sender (a commit sends its invalidations as well); View resets the store and answers true; other messages are ignored; the history invariant is kept |
| Server.AbortUndoesPrepare | thor/actors.py:142-146 | aborting right after a successful prepare restores the shard exactly |
| Server.ReadThenCommitInvalidates | thor/actors.py:133-136 | a clerk that read an oid is sent an invalidation when a later commit writes that oid |
| Server.ReplayedCommitRejected | thor/actors.py:118-124 | with distinct tids in the history, a commit that succeeded, replayed, answers false and changes nothing |
| Directory.Init | thor/actors.py:160-163 | a new directory has an empty map and no listeners |
| Directory.RegisterListener | thor/actors.py:166-169 | the sender is appended to the listeners and sent the current map; the map is unchanged |
| Directory.WhoServesUpdate | thor/actors.py:170-175 | the update is merged with the update winning; every listener entry is pushed the merged map; the sender gets true once; nothing else is sent |
| Directory.Receive | thor/actors.py:165-178 | RegisterListener and WhoServes give exactly the state and sends of their handlers; other messages are ignored; the map never loses a key |
| Directory.ListenerGetsLaterUpdates | thor/actors.py:166-175 | a clerk that registered is pushed every later update, and the pushed map carries the update's assignments |
| Directory.WhoServesIdempotent | thor/actors.py:172 | applying the same update twice leaves the map as applying it once |
| Aggregator.Init | thor/utils.py:16-21 | a new aggregator has asked nobody and recorded nothing |
| Aggregator.Filter | thor/utils.py:33-37 | a read or write set filtered to a shard's oids keeps exactly the keys in both, with their values |
| Aggregator.RestrictAsWritten | thor/utils.py:31-37 | the per-shard copy as the source builds it: filtered sets, the same tid and timestamp, status Reading, and no clerk address |
| Aggregator.Restrict | thor/utils.py:31-37 | the per-shard copy with the clerk address kept: filtered read and write sets with the original values, the same tid and timestamp, status Reading |
| Aggregator.ScatterStep | thor/utils.py:24-39 | remembers the transaction and the asker, records each shard of the map as asked, and sends each of them exactly one request with its restricted copy, and nothing else; the copy is the corrected one that keeps the clerk address (`Aggregator.Restrict`), not the one thor/utils.py:31-37 builds (see Findings) |
| Aggregator.ReplyStep | thor/utils.py:41-48 | a reply from a sender that was not asked changes nothing; otherwise it is appended, a repeat included; one Gather with the original transaction and all replies goes to the asker exactly when the reply count reaches the asked count |
| Aggregator.Receive | thor/utils.py:23-48 | a Scatter gives exactly the state and requests of `ScatterStep`; any other message is a reply handled by `ReplyStep`, which sends the Gather once the counts match; a reply records at most one answer |
| Aggregator.Replies | thor/utils.py:41-48 | a run of replies never changes the asked shards, transaction or asker, and records at most one answer per reply |
| Aggregator.GatherWhenCountReached | thor/utils.py:44-48 | over any run of replies, exactly one Gather is sent if the count crosses the asked count, and none otherwise |
| Aggregator.AskedRepliesRecorded | thor/utils.py:42-44 | replies from asked shards are all recorded, in arrival order |
| Aggregator.OneGatherAfterAllReplies | thor/utils.py:24-48 | scatter to a non-empty map, then one reply per shard: exactly one Gather, to the asker, with the original transaction and the replies in arrival order |
| Aggregator.LastReplyGathers | thor/utils.py:44-48 | once the asked shards are exactly the reply senders, the replies end in one Gather of all of them |
| Aggregator.NoGatherWithoutShards | thor/utils.py:29-45 | with an empty shard map, no run of replies ever causes a Gather |
| Aggregator.RestrictPartitions | thor/utils.py:31-37 | for disjoint groups, the per-shard read sets are pairwise disjoint, and their union is the read set restricted to the mapped oids |
| Aggregator.AsWrittenReadCopyUnservable | thor/utils.py:31-37 | the copy as written cannot be served by any shard when it has a read oid, because it names no clerk to subscribe |
| Aggregator.ScatteredReadsSubscribeClerk | thor/utils.py:31-39 | with the clerk kept, every read request a scatter sends can be served where its oids are stored, and the shard subscribes the reading clerk |
| Clerk.Init | thor/clerk.py:30-41 | a new clerk has counter 0, empty caches and no reads or transactions in flight |
| Clerk.GroupByServer | thor/clerk.py:94-100 | groups are keyed by exactly the servers of the map; each oid is in its own server's group; each group holds only oids of that server; no group is empty |
| Clerk.GroupsDisjoint | thor/clerk.py:94-100 | groups of distinct servers share no oid |
| Clerk.WhoServesFor | thor/clerk.py:74-81 | pending exactly when a requested oid is unmapped; otherwise the requested oids, and only they, grouped by server, with no empty group |
| Clerk.NothingToLookUp | thor/clerk.py:74-81 | resolving no oids gives an empty grouping |
| Clerk.Unread | thor/clerk.py:103 | the read set of a fresh read has exactly the requested oids, none of them read yet |
| Clerk.ReadTrx | thor/clerk.py:103-105 | the transaction a read attempt creates: this clerk's tid for the counter, every oid unread, no writes, no timestamp, status Reading, this clerk as clerk |
| Clerk.ReadLaunch | thor/clerk.py:108-114 | the read Scatter goes to the aggregator named after the tid and uses the shard grouping of the uncached oids; it carries a copy of the new transaction with the same tid and clerk, status Reading, no writes and no timestamp, whose read set is the uncached oids only |
| Clerk.ReadGatherHandledAsReadDone | thor/clerk.py:57-59 | the Gather that comes back for a started read carries the Scatter's copy, and the clerk handles it as `read_done` for the transaction the attempt recorded under that tid |
| Clerk.StartRead | thor/clerk.py:102-115 | the counter advances on every attempt; the read starts exactly when every uncached oid is mapped; a started read records the full transaction under its tid and sends one Scatter; otherwise nothing else changes and nothing is sent |
| Clerk.SuccessiveReadsDistinctTids | thor/clerk.py:105-106 | two read attempts in a row get different tids, whether or not the first one started |
| Clerk.StuckCounts | thor/clerk.py:89-90 | the failed list keeps each request as often as it was worked on when its mapping is incomplete, and drops it otherwise |
| Clerk.ReverseAt | thor/clerk.py:85-86 | `pop()` takes from the end: the j-th request popped is the one at queue position n-1-j |
| Clerk.Drain | thor/clerk.py:85-90 | over the pops of the loop, the j-th started request is recorded under the tid for counter c + j and its Scatter is sent; one send per started request; the stuck ones are collected in pop order; other in-flight reads are untouched |
| Clerk.CheckPendingReads | thor/clerk.py:83-92 | the new queue is the stuck requests in reverse queue order; the counter advances once per queued request; one send per started read; nothing but counter, in-flight reads and queue changes |
| Clerk.PendingReadsKept | thor/clerk.py:83-92 | no queued request is lost or duplicated: it stays queued, as often as before, exactly when its mapping is incomplete |
| Clerk.PendingReadsStarted | thor/clerk.py:83-92 | every queued request whose mapping is complete is started: the j-th one popped, taken from the end of the queue, is recorded under the tid for counter value trxCounter + j, and its Scatter is sent |
| Clerk.Read | thor/clerk.py:51-53 | queue then retry: the counter advances once per queued request, and the new request stays queued exactly when its mapping is incomplete |
| Clerk.PushStartsMappedRead | thor/clerk.py:65-68 | a queued read whose uncached oids all become mapped by a directory push leaves the queue |
| Clerk.AllCachedReadAsksNoShard | thor/clerk.py:108-114 | a read of cached oids only starts with an empty shard map, so its aggregator never gathers |
| Clerk.MergeObjects | thor/clerk.py:123 | `dict.update` on the object cache: the keys are the union, the update wins, and other entries are kept |
| Clerk.MergeAnswers | thor/clerk.py:121-123 | after merging the answers in arrival order, an oid is cached exactly when it was cached or some answer carries it; the last answer carrying it wins; otherwise the cached snapshot is kept |
| Clerk.Executable | thor/clerk.py:125-128 | the transaction handed to the client: the same tid, timestamp and clerk; every requested oid filled from the cache; an empty write set; status Executing |
| Clerk.ReadDone | thor/clerk.py:117-131 | the read leaves the in-flight table and the answers are merged into the cache; the client gets the filled transaction when every requested oid is then cached, and false otherwise |
| Clerk.ReadAnsweredIffCovered | thor/clerk.py:117-131 | after a started read, the client gets the filled transaction exactly when every requested oid was cached or carried by some answer, and false otherwise; the read is no longer in flight |
| Clerk.StartPrepare | thor/clerk.py:133-143 | with an unmapped read oid nothing changes and nothing is sent; otherwise the transaction, stamped with the clock reading, is recorded under its tid and one Prepare Scatter goes to its aggregator, grouped by the read set's shards |
| Clerk.WritesOutsideReadSetReachNoShard | thor/clerk.py:136-142 | every per-shard request of a prepare or commit scatter writes only oids of the read set |
| Clerk.YesVoters | thor/clerk.py:151-153 | a shard is listed exactly when one of its replies is truthy |
| Clerk.YesVotersBounded | thor/clerk.py:151-153 | a shard is listed as a yes voter at most as often as it replied |
| Clerk.AbortsReachYesVoters | thor/clerk.py:149-154 | after a failed vote, each shard that voted yes is sent Abort, no other shard is, no shard gets more Aborts than it sent replies (one per truthy reply), and the client gets false exactly once |
| Clerk.PrepareDone | thor/clerk.py:145-162 | the entry leaves the preparing table and nothing but the two transaction tables changes; on a no vote: Abort to exactly the yes voters, never more often than a shard replied, and false to the client, nothing else; on all yes: status Preparing, recorded as prepared, one Commit Scatter by the read set's shards; with an incomplete mapping, nothing further |
| Clerk.CommitDone | thor/clerk.py:164-167 | the entry leaves the prepared table and the client gets true, whatever the shards answered |
| Clerk.CommitRequestOutcome | thor/clerk.py:133-167 | for a commit request with a mapped read set: all yes votes end with the client answered true by the commit gather; any no vote answers it false at once; the tid is then in neither the preparing nor the prepared table |
| Clerk.Receive | thor/clerk.py:43-72 | View stores directory and key space, registers with the directory and answers true; Read queues and retries; Commit starts a prepare; Gather dispatches on status Reading, Executing and Preparing, and ignores Committed; WhoServes merges and retries the queue; CacheInvalidate removes exactly that oid |

## Left out

- `truncate_history` and `THRESHOLD` (thor/actors.py:11, 67-71) depend on the wall clock, and their only call is commented out.
- `GetTimestamp` (thor/actors.py:176-178) reads the wall clock. The directory's `Receive` ignores that message.
- The wall clock in `start_prepare` is the parameter `now` of `Clerk.StartPrepare`.
- The actor runtime is not modelled. Addresses are global names and `createActor` is implicit. Each aggregator starts from `Aggregator.Init`. The `ActorExitRequest` an aggregator sends itself after gathering is not modelled.
- The runtime's handling of an exception a handler raises (retry, then a poison message to the sender) is not modelled.
- Interleavings of several actors are out of scope. Only single-handler transitions and the short sequences the lemmas state are modelled.
- Logging is not modelled.
- The client scripts start.py, app.py, multi_test.py and stop.py are not part of this model.
- The library's `SortedListWithKey` is modelled by `History`: a sorted sequence with `bisect_key_left`, `add` at `bisect_key_right`, and `index` and `remove`.
- History entries are looked up among those with the argument's timestamp, as the library does, and matched there by tid, as the class's `__hash__` does. `Transaction` defines no `__eq__`, so the library's `index` and `remove` compare by object identity. The model does not represent object identity.
- The clerk's key space is stored but never used, as in the source.
- Server.GetObjects: the precondition stands in for the KeyError or missing-attribute error the source raises on an unstored oid or a copy without a clerk.
- Server.Prepare: the precondition requires a timestamp. The source raises TypeError without one, except when both the history and the read set are empty; there it inserts an unstamped entry, and the model excludes that input.
- Server.Prepare: once the backward check has passed, the precondition also requires every read oid to be stored and read. In the source, an unstored oid raises KeyError (thor/actors.py:92). An unread oid raises TypeError at `shadow[1]` (thor/actors.py:95), but only when the timestamp is not below that oid's read stamp. Either error is raised only if no oid earlier in the read set's insertion order has already answered False. The model does not keep that order, so it excludes these inputs even where the source answers False.
- Server.Commit: the precondition stands in for the TypeError raised on a missing timestamp when the history is non-empty (with an empty history the ValueError is caught and the model answers false, as the source does), and for the KeyError raised on an unstored oid or on a written oid without a subscriber list once the entry is found.
- Server.Abort: the precondition stands in for the ValueError the sorted list raises when no entry has the tid under the transaction's timestamp, and for the TypeError raised on a missing timestamp.
- Aggregator.ScatterStep: sends the copy that keeps the clerk address. The copy as the source builds it is `Aggregator.RestrictAsWritten` (see Findings).
- Clerk.ReadDone: the precondition stands in for the KeyError raised on an unknown tid, and for a reply that is not an objects map.
- Clerk.PrepareDone: the precondition stands in for the KeyError raised on an unknown tid.
- Clerk.CommitDone: the precondition stands in for the KeyError raised on an unknown tid.
- Clerk.Receive: requires `Accepts`, which excludes exactly the inputs for which one of the handlers above raises. A CacheInvalidate for an oid that is not cached is excluded too, since `pop` raises there.
- Clerk.StartPrepare: an incomplete mapping raises `NotCached` uncaught in the source. The model states only "no change, nothing sent" and leaves out the runtime's reply to the exception.
- Clerk.Read: its own contract states the counter and whether the new request stays queued. Where the other queued requests go is stated by `Clerk.PendingReadsKept` and `Clerk.PendingReadsStarted` on the same step.
- Types.Broadcast: sends are kept as a multiset, so the order of one handler's sends is not modelled, even to the same receiver. The actor runtime keeps the order between one sender and one receiver. Examples are two invalidations from one commit to the same clerk, or a directory push followed by the reply to a sender that is also a listener.

## Findings

| source | as written | input that shows it | evidently intended | confidence | as-written member | corrected member |
|---|---|---|---|---|---|---|
| thor/utils.py:31-37 | the per-shard copy is built with the four-argument `Transaction` constructor, so it carries no `clerk` address, yet `get_objects` reads `transaction.clerk` to subscribe the reader (thor/actors.py:64) | a read Scatter whose shard map gives a shard a non-empty set of read oids: the copy sent to that shard has a read oid and no clerk | the copy carries the original's clerk address, so the shard can serve the read and subscribe the clerk | medium, not executed | Aggregator.AsWrittenReadCopyUnservable | Aggregator.ScatteredReadsSubscribeClerk |

=== FILE: aggregator.dfy ===
/**
 The scatter/gather helper: one instance per multi-shard step. `Scatter`
 sends each shard the transaction restricted to the oids that shard owns;
 every reply from an asked shard is recorded, and once as many replies as
 shards asked have arrived, one `Gather` goes back to the asker.
 */
module Aggregator {
  import opened Types
  import Server

  datatype AggState = AggState(
    trx: Option<Transaction>,   // the original, unrestricted transaction
    asker: Option<Addr>,
    asked: multiset<Addr>,      // the shards asked, one entry per request
    answers: seq<Answer>)       // replies in arrival order

  /** A fresh aggregator. */
  function Init(): (s: AggState)
    ensures Valid(s) && s.asked == multiset{} && s.answers == []
  {
    AggState(None, None, multiset{}, [])
  }

  /** Once a shard has been asked, there is a transaction and an asker to
      gather for. */
  predicate Valid(s: AggState) {
    s.asked != multiset{} ==> s.trx.Some? && s.asker.Some?
  }

  /** `{k: v for k, v in m.items() if k in ids}`: `m` restricted to the keys
      in `ids`, for the read set and the write set alike. */
  function Filter<V>(m: map<Oid, V>, ids: set<Oid>): (r: map<Oid, V>)
    ensures r.Keys == m.Keys * ids
    ensures forall k :: k in r ==> r[k] == m[k]
  {
    map k | k in m && k in ids :: m[k]
  }

  /** The per-shard copy as the source builds it: the four-argument
      constructor, so status Reading and no clerk address. */
  function RestrictAsWritten(t: Transaction, ids: set<Oid>): (r: Transaction)
    ensures r.clerk.None?
    ensures r.tid == t.tid && r.timestamp == t.timestamp && r.status == Reading
    ensures r.readSet.Keys == t.readSet.Keys * ids && r.writeSet.Keys == t.writeSet.Keys * ids
  {
    NewTransaction(t.tid, Filter(t.readSet, ids), Filter(t.writeSet, ids), t.timestamp, None)
  }

  /** The per-shard copy with the clerk address carried over, which the
      shard needs to subscribe the reader (the model uses this one). Read
      and write sets are filtered to `ids`; tid and timestamp are kept and
      the status starts again at Reading. */
  function Restrict(t: Transaction, ids: set<Oid>): (r: Transaction)
    ensures r.tid == t.tid && r.timestamp == t.timestamp && r.status == Reading
    ensures r.clerk == t.clerk
    ensures r.readSet.Keys == t.readSet.Keys * ids
    ensures forall k :: k in r.readSet ==> r.readSet[k] == t.readSet[k]
    ensures r.writeSet.Keys == t.writeSet.Keys * ids
    ensures forall k :: k in r.writeSet ==> r.writeSet[k] == t.writeSet[k]
  {
    NewTransaction(t.tid, Filter(t.readSet, ids), Filter(t.writeSet, ids), t.timestamp, t.clerk)
  }

  /** The request each shard of the map is sent. */
  function Requests(t: Transaction, shardMap: map<Addr, set<Oid>>, kind: RequestKind): Outbox {
    multiset(set a | a in shardMap :: Send(a, Request(kind, Restrict(t, shardMap[a]))))
  }

  /** `Scatter`: remember the transaction and the asker, and send every shard
      of the map one request carrying its restriction of the transaction. */
  function ScatterStep(s: AggState, t: Transaction, shardMap: map<Addr, set<Oid>>, kind: RequestKind, sender: Addr)
    : (r: (AggState, Outbox))
    ensures Valid(r.0)
    ensures r.0.trx == Some(t) && r.0.asker == Some(sender)
    ensures r.0.asked == s.asked + multiset(shardMap.Keys)
    ensures r.0.answers == s.answers
    ensures forall a :: a in shardMap ==> r.1[Send(a, Request(kind, Restrict(t, shardMap[a])))] == 1
    ensures forall x :: x in r.1 ==> x.to in shardMap && x.msg == Request(kind, Restrict(t, shardMap[x.to]))
  {
    (AggState(Some(t), Some(sender), s.asked + multiset(shardMap.Keys), s.answers), Requests(t, shardMap, kind))
  }

  /** Any other message is a reply. A sender that was not asked is ignored.
      Otherwise the reply is recorded (a repeated reply counts again), and
      when the number of replies equals the number of shards asked, the
      original transaction and the replies go back to the asker. */
  function ReplyStep(s: AggState, m: Msg, sender: Addr): (r: (AggState, Outbox))
    requires Valid(s)
    ensures Valid(r.0)
    ensures r.0.trx == s.trx && r.0.asker == s.asker && r.0.asked == s.asked
    ensures sender !in s.asked ==> r == (s, multiset{})
    ensures sender in s.asked ==> r.0.answers == s.answers + [Answer(sender, m)]
    ensures r.1 == if sender in s.asked && |r.0.answers| == |s.asked|
                   then multiset{Send(s.asker.value, Gather(s.trx.value, r.0.answers))}
                   else multiset{}
  {
    if sender !in s.asked then (s, multiset{})
    else
      var answers := s.answers + [Answer(sender, m)];
      var s' := s.(answers := answers);
      if |s.asked| == |answers| then (s', multiset{Send(s.asker.value, Gather(s.trx.value, answers))})
      else (s', multiset{})
  }

  /** `receiveMessage`. */
  function Receive(s: AggState, m: Msg, sender: Addr): (r: (AggState, Outbox))
    requires Valid(s)
    ensures Valid(r.0)
    ensures m.Scatter? ==> r.0.asked == s.asked + multiset(m.shardMap.Keys)
    ensures !m.Scatter? ==> r.0.asked == s.asked && |r.0.answers| <= |s.answers| + 1
    ensures m.Scatter? ==> r == ScatterStep(s, m.trx, m.shardMap, m.kind, sender)
    ensures !m.Scatter? ==> r == ReplyStep(s, m, sender)
  {
    match m
    case Scatter(t, shardMap, kind) => ScatterStep(s, t, shardMap, kind, sender)
    case _ => ReplyStep(s, m, sender)
  }

  /** A sequence of replies delivered one by one; the sends accumulate. */
  function Replies(s: AggState, incoming: seq<Answer>): (r: (AggState, Outbox))
    requires Valid(s)
    ensures Valid(r.0) && r.0.asked == s.asked && r.0.trx == s.trx && r.0.asker == s.asker
    ensures |s.answers| <= |r.0.answers| <= |s.answers| + |incoming|
    decreases |incoming|
  {
    if incoming == [] then (s, multiset{})
    else
      var n := |incoming| - 1;
      var (s1, out1) := Replies(s, incoming[..n]);
      var (s2, out2) := ReplyStep(s1, incoming[n].reply, incoming[n].from);
      (s2, out1 + out2)
  }

  /** A Gather is sent exactly when the count of replies crosses the count
      of shards asked, so at most once in the life of an aggregator. */
  lemma {:induction false} GatherWhenCountReached(s: AggState, incoming: seq<Answer>)
    requires Valid(s)
    ensures var r := Replies(s, incoming);
            |r.1| == if |s.answers| < |s.asked| <= |r.0.answers| then 1 else 0
    decreases |incoming|
  {
    if incoming != [] {
      var n := |incoming| - 1;
      GatherWhenCountReached(s, incoming[..n]);
    }
  }

  /** When every reply comes from an asked shard, all of them are recorded,
      in arrival order. */
  lemma {:induction false} AskedRepliesRecorded(s: AggState, incoming: seq<Answer>)
    requires Valid(s)
    requires forall i :: 0 <= i < |incoming| ==> incoming[i].from in s.asked
    ensures Replies(s, incoming).0.answers == s.answers + incoming
    decreases |incoming|
  {
    if incoming != [] {
      var n := |incoming| - 1;
      AskedRepliesRecorded(s, incoming[..n]);
      assert incoming == incoming[..n] + [incoming[n]];
    }
  }

  /** The shards the replies come from, in arrival order. */
  function Senders(incoming: seq<Answer>): (r: seq<Addr>)
    ensures |r| == |incoming|
    ensures forall i :: 0 <= i < |incoming| ==> r[i] == incoming[i].from
  {
    seq(|incoming|, i requires 0 <= i < |incoming| => incoming[i].from)
  }

  /** Scatter to a non-empty map, then one reply from each shard: exactly one
      Gather, to the asker, carrying the original transaction and every
      reply in arrival order. */
  lemma OneGatherAfterAllReplies(t: Transaction, shardMap: map<Addr, set<Oid>>, kind: RequestKind,
                                 asker: Addr, incoming: seq<Answer>)
    requires |shardMap| > 0
    requires multiset(Senders(incoming)) == multiset(shardMap.Keys)
    ensures var s := ScatterStep(Init(), t, shardMap, kind, asker).0;
            Replies(s, incoming).1 == multiset{Send(asker, Gather(t, incoming))}
  {
    var s := ScatterStep(Init(), t, shardMap, kind, asker).0;
    assert s.asked == multiset(Senders(incoming));
    LastReplyGathers(s, incoming);
  }

  /** From a fresh scatter whose asked shards are exactly the senders of the
      replies, the replies end in one Gather of all of them. */
  lemma LastReplyGathers(s: AggState, incoming: seq<Answer>)
    requires Valid(s) && s.answers == [] && s.asked == multiset(Senders(incoming)) && incoming != []
    ensures Replies(s, incoming).1 == multiset{Send(s.asker.value, Gather(s.trx.value, incoming))}
  {
    SendersAsked(s, incoming);
    var n := |incoming| - 1;
    PrefixRecordedSilently(s, incoming, n);
    var r1 := Replies(s, incoming[..n]);
    assert incoming[..n] + [Answer(incoming[n].from, incoming[n].reply)] == incoming;
    assert ReplyStep(r1.0, incoming[n].reply, incoming[n].from).1 ==
           multiset{Send(s.asker.value, Gather(s.trx.value, incoming))};
  }

  /** All replies but the last are recorded, and none of them gathers. */
  lemma PrefixRecordedSilently(s: AggState, incoming: seq<Answer>, n: nat)
    requires Valid(s) && s.answers == [] && n < |incoming| == |s.asked|
    requires forall i :: 0 <= i < |incoming| ==> incoming[i].from in s.asked
    ensures Replies(s, incoming[..n]).0.answers == incoming[..n]
    ensures Replies(s, incoming[..n]).1 == multiset{}
  {
    var prefix := incoming[..n];
    assert forall i :: 0 <= i < |prefix| ==> prefix[i] == incoming[i];
    AskedRepliesRecorded(s, prefix);
    GatherWhenCountReached(s, prefix);
  }

  lemma SendersAsked(s: AggState, incoming: seq<Answer>)
    requires s.asked == multiset(Senders(incoming))
    ensures forall i :: 0 <= i < |incoming| ==> incoming[i].from in s.asked
    ensures |s.asked| == |incoming|
  {
    var froms := Senders(incoming);
    forall i | 0 <= i < |incoming| ensures incoming[i].from in s.asked {
      assert froms[i] in multiset(froms);
    }
  }

  /** With an empty shard map nobody is asked, so no reply is recorded and no
      Gather is ever sent. */
  lemma {:induction false} NoGatherWithoutShards(t: Transaction, kind: RequestKind, asker: Addr, incoming: seq<Answer>)
    ensures var s := ScatterStep(Init(), t, map[], kind, asker).0;
            Replies(s, incoming).1 == multiset{}
  {
    var s := ScatterStep(Init(), t, map[], kind, asker).0;
    GatherWhenCountReached(s, incoming);
  }

  /** When the shard map's groups are disjoint, so are the read sets of the
      per-shard copies, and together they cover exactly the read oids that
      some group maps. */
  lemma RestrictPartitions(t: Transaction, shardMap: map<Addr, set<Oid>>)
    requires forall a, b :: a in shardMap && b in shardMap && a != b ==> shardMap[a] !! shardMap[b]
    ensures forall a, b :: a in shardMap && b in shardMap && a != b ==>
              Restrict(t, shardMap[a]).readSet.Keys !! Restrict(t, shardMap[b]).readSet.Keys
    ensures (set a, k | a in shardMap && k in Restrict(t, shardMap[a]).readSet :: k)
            == t.readSet.Keys * (set a, k | a in shardMap && k in shardMap[a] :: k)
  {
    var lhs := set a, k | a in shardMap && k in Restrict(t, shardMap[a]).readSet :: k;
    var mapped := set a, k | a in shardMap && k in shardMap[a] :: k;
    forall k | k in t.readSet.Keys * mapped ensures k in lhs {
      var a :| a in shardMap && k in shardMap[a];
      assert k in Restrict(t, shardMap[a]).readSet;
    }
  }

  // ------------------------------------------------ the dropped clerk address

  /** As written, the copy a shard receives for an Objects request names no
      clerk, so a shard cannot serve any non-empty read from it (the source
      reads `transaction.clerk` and would raise). */
  lemma AsWrittenReadCopyUnservable(s: Server.ServerState, t: Transaction, ids: set<Oid>)
    requires t.readSet.Keys * ids != {}
    ensures !Server.CanServe(s, RestrictAsWritten(t, ids))
  {
    var c := RestrictAsWritten(t, ids);
    HasMember(t.readSet.Keys * ids);
    var k :| k in t.readSet.Keys * ids;
    assert k in c.readSet;
  }

  /** With the clerk carried over, every Objects request a read scatter sends
      can be served wherever its oids are stored, and the shard subscribes
      the reading clerk to each of them. */
  lemma ScatteredReadsSubscribeClerk(t: Transaction, shardMap: map<Addr, set<Oid>>, asker: Addr,
                                     x: Send, s: Server.ServerState)
    requires t.clerk.Some?
    requires x in ScatterStep(Init(), t, shardMap, ObjectsReq, asker).1
    requires x.msg.trx.readSet.Keys <= s.store.Keys
    ensures Server.CanServe(s, x.msg.trx)
    ensures forall o :: o in x.msg.trx.readSet ==>
              Server.GetObjects(s, x.msg.trx).0.cacheTable[o] == Server.Subscribers(s.cacheTable, o) + [t.clerk.value]
  {
  }
}

=== FILE: clerk.dfy ===
/**
 The clerk: the per-client coordinator. It resolves which shard serves each
 oid from its copy of the shard map, queues reads whose mapping is not yet
 known, drives the read, prepare and commit phases through aggregators,
 keeps a cache of read objects, and evicts an object when a shard reports a
 write to it. Each handler is a pure transition from the old state.
 */
module Clerk {
  import opened Types
  import opened Naming
  import Aggregator

  /** A read request waiting for its shard mapping. */
  datatype PendingRead = PendingRead(requester: Addr, oids: set<Oid>)

  /** A transaction in flight, and the client to answer when it completes. */
  datatype Waiting = Waiting(client: Addr, trx: Transaction)

  datatype ClerkState = ClerkState(
    name: string,                        // the clerk's global name, prefix of its tids
    address: Addr,                       // the clerk's own address
    directory: Option<Addr>,
    keySpace: Option<int>,
    objectCache: map<Oid, Snapshot>,
    serverCache: map<Oid, Addr>,         // the clerk's copy of the shard map
    trxCounter: nat,
    pendingReads: seq<PendingRead>,
    trxReading: map<string, Waiting>,
    trxPreparing: map<string, Waiting>,
    trxPrepared: map<string, Waiting>)

  /** A fresh clerk. */
  function Init(name: string, address: Addr): (st: ClerkState)
    ensures st.trxCounter == 0 && st.objectCache == map[] && st.serverCache == map[]
    ensures st.pendingReads == [] && st.trxReading == map[] && st.trxPreparing == map[] && st.trxPrepared == map[]
  {
    ClerkState(name, address, None, None, map[], map[], 0, [], map[], map[], map[])
  }

  // ------------------------------------------------------- shard lookup

  /** `_group_by_server`: the oids of a shard map, grouped by their server. */
  function GroupByServer(m: map<Oid, Addr>): (g: map<Addr, set<Oid>>)
    ensures g.Keys == m.Values
    ensures forall o :: o in m ==> m[o] in g && o in g[m[o]]
    ensures forall a, o :: a in g && o in g[a] ==> o in m && m[o] == a
    ensures forall a :: a in g ==> g[a] != {}
  {
    var g := map a | a in m.Values :: set o | o in m && m[o] == a;
    GroupsNonEmpty(m, g);
    g
  }

  lemma GroupsNonEmpty(m: map<Oid, Addr>, g: map<Addr, set<Oid>>)
    requires g == map a | a in m.Values :: set o | o in m && m[o] == a
    ensures forall a :: a in g ==> g[a] != {}
  {
    forall a | a in g ensures g[a] != {} {
      ValueHasKey(m, a);
      var o :| o in m.Keys && m[o] == a;
      assert o in g[a];
    }
  }

  /** A value of a map is stored under some key. */
  lemma ValueHasKey(m: map<Oid, Addr>, a: Addr)
    requires a in m.Values
    ensures exists o :: o in m.Keys && m[o] == a
  {
    if forall o :: o in m.Keys ==> m[o] != a {
      assert false;
    }
  }

  /** Distinct servers' groups never share an oid. */
  lemma GroupsDisjoint(m: map<Oid, Addr>)
    ensures var g := GroupByServer(m);
            forall a, b :: a in g && b in g && a != b ==> g[a] !! g[b]
  {
  }

  /** The result of resolving shards: `NotCached` is the `Pending` case. */
  datatype Lookup = Pending | Ready(groups: map<Addr, set<Oid>>)

  /** Some oid of the request has no server in the clerk's shard map. */
  predicate Unmapped(serverCache: map<Oid, Addr>, oids: set<Oid>) {
    exists o :: o in oids && o !in serverCache
  }

  /** `_get_who_serves`: pending when some oid is unmapped, otherwise the
      requested oids (and no others) grouped by server. */
  function WhoServesFor(serverCache: map<Oid, Addr>, oids: set<Oid>): (r: Lookup)
    ensures r.Pending? <==> Unmapped(serverCache, oids)
    ensures r.Ready? ==> forall o :: o in oids ==> serverCache[o] in r.groups && o in r.groups[serverCache[o]]
    ensures r.Ready? ==> forall a, o :: a in r.groups && o in r.groups[a] ==> o in oids && serverCache[o] == a
    ensures r.Ready? ==> forall a :: a in r.groups ==> r.groups[a] != {}
  {
    if Unmapped(serverCache, oids) then Pending
    else
      var requested := map o | o in serverCache && o in oids :: serverCache[o];
      assert forall o :: o in oids ==> o in requested && requested[o] == serverCache[o];
      Ready(GroupByServer(requested))
  }

  // -------------------------------------------------------------- reads

  /** The read set of a fresh transaction: every oid, not yet read. */
  function Unread(oids: set<Oid>): (r: map<Oid, Option<Snapshot>>)
    ensures r.Keys == oids && forall k :: k in r ==> r[k] == None
  {
    map k | k in oids :: None
  }

  /** The transaction read attempt number `c` creates: this clerk's tid
      for `c`, every requested oid unread, no writes, no timestamp, this
      clerk as its clerk. */
  function ReadTrx(st: ClerkState, c: nat, oids: set<Oid>): (t: Transaction)
    ensures t.tid == Tid(st.name, c) && t.status == Reading
    ensures t.readSet == Unread(oids) && t.writeSet == map[]
    ensures t.timestamp == None && t.clerk == Some(st.address)
  {
    NewTransaction(Tid(st.name, c), Unread(oids), map[], None, Some(st.address))
  }

  /** The read cannot start yet: an oid that is not cached has no known server. */
  predicate NotCached(st: ClerkState, oids: set<Oid>) {
    Unmapped(st.serverCache, oids - st.objectCache.Keys)
  }

  /** The Scatter read attempt number `c` sends when it starts: a copy of
      the new transaction (status Reading, no writes, no timestamp) in which
      only the oids not already cached are asked for, from the shards that
      serve them, by the aggregator named after the tid. */
  function ReadLaunch(st: ClerkState, c: nat, oids: set<Oid>): (x: Send)
    requires !NotCached(st, oids)
    ensures x.to == AggregatorName(Tid(st.name, c), "r")
    ensures x.msg.Scatter? && x.msg.kind == ObjectsReq
    ensures x.msg.trx.readSet == Unread(oids - st.objectCache.Keys)
    ensures x.msg.trx.tid == Tid(st.name, c) && x.msg.trx.clerk == Some(st.address)
    ensures x.msg.trx.status == Reading && x.msg.trx.writeSet == map[] && x.msg.trx.timestamp == None
    ensures x.msg.shardMap == WhoServesFor(st.serverCache, oids - st.objectCache.Keys).groups
  {
    var side := ReadTrx(st, c, oids).(readSet := Unread(oids - st.objectCache.Keys));
    var groups := WhoServesFor(st.serverCache, side.readSet.Keys).groups;
    Send(AggregatorName(side.tid, "r"), Scatter(side, groups, ObjectsReq))
  }

  /** `start_read`. The counter advances on every attempt, also one that ends
      in NotCached. A started read sends one Scatter and records the full
      transaction under its tid; a pending one changes nothing else. The
      third component says whether the read started. */
  function StartRead(st: ClerkState, requester: Addr, oids: set<Oid>): (r: (ClerkState, Outbox, bool))
    ensures r.2 == !NotCached(st, oids)
    ensures r.0.trxCounter == st.trxCounter + 1
    ensures !r.2 ==> r.0 == st.(trxCounter := st.trxCounter + 1) && r.1 == multiset{}
    ensures r.2 ==> r.0 == st.(trxCounter := st.trxCounter + 1,
                              trxReading := st.trxReading[Tid(st.name, st.trxCounter) :=
                                                          Waiting(requester, ReadTrx(st, st.trxCounter, oids))])
    ensures r.2 ==> r.1 == multiset{ReadLaunch(st, st.trxCounter, oids)}
  {
    var main := ReadTrx(st, st.trxCounter, oids);
    var st' := st.(trxCounter := st.trxCounter + 1);
    if NotCached(st, oids) then (st', multiset{}, false)
    else (st'.(trxReading := st.trxReading[main.tid := Waiting(requester, main)]),
          multiset{ReadLaunch(st, st.trxCounter, oids)}, true)
  }

  /** A queue in the opposite order: `pop()` takes from the end. */
  function Reverse(q: seq<PendingRead>): (r: seq<PendingRead>)
    ensures |r| == |q|
  {
    if q == [] then [] else Reverse(q[1..]) + [q[0]]
  }

  /** The element at position `i` of the reversed queue. */
  lemma {:induction false} ReverseAt(q: seq<PendingRead>, i: nat)
    requires i < |q|
    ensures Reverse(q)[i] == q[|q| - 1 - i]
    decreases |q|
  {
    if i < |q| - 1 {
      ReverseAt(q[1..], i);
    }
  }

  /** Reversing keeps every element as often as it was there. */
  lemma {:induction false} ReverseCounts(q: seq<PendingRead>)
    ensures multiset(Reverse(q)) == multiset(q)
    decreases |q|
  {
    if q != [] {
      ReverseCounts(q[1..]);
      assert q == [q[0]] + q[1..];
    }
  }

  /** The stuck requests of a work list, in work order. */
  function Stuck(st: ClerkState, work: seq<PendingRead>): (r: seq<PendingRead>)
    ensures |r| <= |work|
  {
    if work == [] then []
    else (if NotCached(st, work[0].oids) then [work[0]] else []) + Stuck(st, work[1..])
  }

  /** Each request is kept as often as it was queued when it is stuck, and
      dropped otherwise. */
  lemma {:induction false} StuckCounts(st: ClerkState, work: seq<PendingRead>)
    ensures forall req :: multiset(Stuck(st, work))[req] == if NotCached(st, req.oids) then multiset(work)[req] else 0
    decreases |work|
  {
    if work != [] {
      StuckCounts(st, work[1..]);
      assert work == [work[0]] + work[1..];
    }
  }

  /** Read attempt number `c` for `req` has started: the full transaction is
      recorded under its tid and its Scatter is among the sends. */
  predicate StartedAt(st: ClerkState, c: nat, req: PendingRead, reading: map<string, Waiting>, out: Outbox) {
    && !NotCached(st, req.oids)
    && Tid(st.name, c) in reading
    && reading[Tid(st.name, c)] == Waiting(req.requester, ReadTrx(st, c, req.oids))
    && out[ReadLaunch(st, c, req.oids)] > 0
  }

  /** The tids a clerk named `name` hands out for counters `c` .. `c + n - 1`. */
  function Issued(name: string, c: nat, n: nat): set<string> {
    set k: nat | c <= k < c + n :: Tid(name, k)
  }

  /** Every request of a work list whose mapping is complete has started,
      the `j`-th one as read attempt number `c + j`. */
  predicate WorkStarted(st: ClerkState, c: nat, work: seq<PendingRead>, reading: map<string, Waiting>, out: Outbox) {
    forall j :: 0 <= j < |work| && !NotCached(st, work[j].oids) ==> StartedAt(st, c + j, work[j], reading, out)
  }

  /** The loop of `check_pending_reads`, over the requests in the order
      `pop()` yields them: each is passed to `StartRead` with the counter
      and the reading table reached so far. The `j`-th request gets
      counter value `c + j`. The third component lists the requests that
      are stuck, in the order they are appended to `failed`. */
  function Drain(st: ClerkState, c: nat, reading: map<string, Waiting>, work: seq<PendingRead>)
    : (r: (map<string, Waiting>, Outbox, seq<PendingRead>))
    ensures r.2 == Stuck(st, work)
    ensures |r.1| == |work| - |Stuck(st, work)|
    ensures WorkStarted(st, c, work, r.0, r.1)
    ensures forall t :: t in reading ==> t in r.0
    ensures forall t :: t in reading && t !in Issued(st.name, c, |work|) ==> r.0[t] == reading[t]
    decreases |work|
  {
    if work == [] then (reading, multiset{}, [])
    else
      var first := StartRead(st.(trxCounter := c, trxReading := reading), work[0].requester, work[0].oids);
      var rest := Drain(st, c + 1, first.0.trxReading, work[1..]);
      StartReadAt(st, c, reading, work[0]);
      DrainStep(st, c, reading, work, first.0.trxReading, first.1, rest.0, rest.1);
      DrainFrame(st, c, |work|, reading, first.0.trxReading, rest.0, first.2, work[0]);
      (rest.0, first.1 + rest.1, (if first.2 then [] else [work[0]]) + rest.2)
  }

  /** One step of the loop: `StartRead` at counter `c` with reading table
      `reading`, stated without the record it works on. */
  lemma StartReadAt(st: ClerkState, c: nat, reading: map<string, Waiting>, req: PendingRead)
    ensures var x := StartRead(st.(trxCounter := c, trxReading := reading), req.requester, req.oids);
            && x.2 == !NotCached(st, req.oids)
            && (x.2 ==> x.0.trxReading == reading[Tid(st.name, c) := Waiting(req.requester, ReadTrx(st, c, req.oids))]
                        && x.1 == multiset{ReadLaunch(st, c, req.oids)})
            && (!x.2 ==> x.0.trxReading == reading && x.1 == multiset{})
  {
    var st0 := st.(trxCounter := c, trxReading := reading);
    assert NotCached(st0, req.oids) == NotCached(st, req.oids);
    assert ReadTrx(st0, c, req.oids) == ReadTrx(st, c, req.oids);
    if !NotCached(st, req.oids) {
      assert ReadLaunch(st0, c, req.oids) == ReadLaunch(st, c, req.oids);
    }
  }

  /** The induction step of `Drain` for the entries it records: the first
      request's entry survives the rest of the loop because later tids use
      larger counters. */
  lemma DrainStep(st: ClerkState, c: nat, reading: map<string, Waiting>, work: seq<PendingRead>,
                  r1: map<string, Waiting>, out1: Outbox, r2: map<string, Waiting>, out2: Outbox)
    requires work != []
    requires !NotCached(st, work[0].oids) ==>
               && r1 == reading[Tid(st.name, c) := Waiting(work[0].requester, ReadTrx(st, c, work[0].oids))]
               && out1 == multiset{ReadLaunch(st, c, work[0].oids)}
    requires var rest := work[1..];
             && WorkStarted(st, c + 1, rest, r2, out2)
             && (forall t :: t in r1 && t !in Issued(st.name, c + 1, |rest|) ==> t in r2 && r2[t] == r1[t])
    ensures WorkStarted(st, c, work, r2, out1 + out2)
  {
    if !NotCached(st, work[0].oids) {
      StartedHead(st, c, |work| - 1, reading, work[0], r1, out1, r2, out2);
    }
    StartedTail(st, c, work, r2, out1, out2);
  }

  /** The first request of the loop, once started, is still recorded after
      the rest of the loop, which only writes tids of larger counters. */
  lemma StartedHead(st: ClerkState, c: nat, n: nat, reading: map<string, Waiting>, req: PendingRead,
                    r1: map<string, Waiting>, out1: Outbox, r2: map<string, Waiting>, out2: Outbox)
    requires !NotCached(st, req.oids)
    requires r1 == reading[Tid(st.name, c) := Waiting(req.requester, ReadTrx(st, c, req.oids))]
    requires out1 == multiset{ReadLaunch(st, c, req.oids)}
    requires forall t :: t in r1 && t !in Issued(st.name, c + 1, n) ==> t in r2 && r2[t] == r1[t]
    ensures StartedAt(st, c, req, r2, out1 + out2)
  {
    FreshTid(st.name, c, n);
  }

  /** The later requests of the loop keep their started state when the
      first request's sends are added. */
  lemma StartedTail(st: ClerkState, c: nat, work: seq<PendingRead>, r2: map<string, Waiting>, out1: Outbox, out2: Outbox)
    requires work != []
    requires WorkStarted(st, c + 1, work[1..], r2, out2)
    ensures forall j :: 0 < j < |work| && !NotCached(st, work[j].oids) ==> StartedAt(st, c + j, work[j], r2, out1 + out2)
  {
    forall j | 0 < j < |work| && !NotCached(st, work[j].oids)
      ensures StartedAt(st, c + j, work[j], r2, out1 + out2)
    {
      assert work[1..][j - 1] == work[j];
    }
  }

  /** The induction step of `Drain` for the entries it leaves alone. */
  lemma DrainFrame(st: ClerkState, c: nat, n: nat, reading: map<string, Waiting>, r1: map<string, Waiting>,
                   r2: map<string, Waiting>, started: bool, req: PendingRead)
    requires 0 < n
    requires started ==> r1 == reading[Tid(st.name, c) := Waiting(req.requester, ReadTrx(st, c, req.oids))]
    requires !started ==> r1 == reading
    requires forall t :: t in r1 ==> t in r2
    requires forall t :: t in r1 && t !in Issued(st.name, c + 1, n - 1) ==> r2[t] == r1[t]
    ensures forall t :: t in reading ==> t in r2
    ensures forall t :: t in reading && t !in Issued(st.name, c, n) ==> r2[t] == reading[t]
  {
    IssuedShift(st.name, c, n);
  }

  /** The tid for counter `c` is not among those for later counters. */
  lemma FreshTid(name: string, c: nat, n: nat)
    ensures Tid(name, c) !in Issued(name, c + 1, n)
  {
    if Tid(name, c) in Issued(name, c + 1, n) {
      var k: nat :| c + 1 <= k < c + 1 + n && Tid(name, c) == Tid(name, k);
      TidInjective(name, c, k);
    }
  }

  /** The counters of a loop are the first one and those of the rest. */
  lemma IssuedShift(name: string, c: nat, n: nat)
    requires 0 < n
    ensures Issued(name, c, n) == {Tid(name, c)} + Issued(name, c + 1, n - 1)
  {
  }

  /** `check_pending_reads`: try every queued read once, last queued first.
      The requests left queued are the stuck ones, in reverse order; the
      counter advances once per request, started or not, and one Scatter
      goes out per started read. */
  function CheckPendingReads(st: ClerkState): (r: (ClerkState, Outbox))
    ensures r.0.pendingReads == Stuck(st, Reverse(st.pendingReads))
    ensures r.0 == st.(trxCounter := st.trxCounter + |st.pendingReads|, trxReading := r.0.trxReading,
                       pendingReads := r.0.pendingReads)
    ensures |r.1| == |st.pendingReads| - |r.0.pendingReads|
    ensures forall t :: t in st.trxReading ==> t in r.0.trxReading
  {
    var q := st.pendingReads;
    var d := Drain(st, st.trxCounter, st.trxReading, Reverse(q));
    (st.(trxCounter := st.trxCounter + |q|, trxReading := d.0, pendingReads := d.2), d.1)
  }

  /** A queued read stays queued exactly when its mapping is incomplete:
      nothing is lost and nothing is duplicated. */
  lemma PendingReadsKept(st: ClerkState)
    ensures forall req :: multiset(CheckPendingReads(st).0.pendingReads)[req] ==
              if NotCached(st, req.oids) then multiset(st.pendingReads)[req] else 0
  {
    StuckCounts(st, Reverse(st.pendingReads));
    ReverseCounts(st.pendingReads);
  }

  /** Every queued read whose mapping is complete is started: the `j`-th
      request popped (`Reverse(q)[j]`, the one at queue position
      `|q| - 1 - j` by `ReverseAt`) is recorded under the tid for counter
      value `trxCounter + j`, and its Scatter is sent. */
  lemma PendingReadsStarted(st: ClerkState)
    ensures WorkStarted(st, st.trxCounter, Reverse(st.pendingReads),
                        CheckPendingReads(st).0.trxReading, CheckPendingReads(st).1)
  {
    CheckPendingReadsDrains(st);
  }

  /** Hands `Drain`'s contract (which tid each started request gets, and
      that other in-flight reads are untouched) to callers of
      `CheckPendingReads`, whose own contract speaks of the queue. */
  lemma CheckPendingReadsDrains(st: ClerkState)
    ensures var d := Drain(st, st.trxCounter, st.trxReading, Reverse(st.pendingReads));
            CheckPendingReads(st).0.trxReading == d.0 && CheckPendingReads(st).1 == d.1
  {
  }

  /** `Read(oids)`: queue the request at the end, then retry the queue. */
  function Read(st: ClerkState, requester: Addr, oids: set<Oid>): (r: (ClerkState, Outbox))
    ensures var q := st.pendingReads + [PendingRead(requester, oids)];
            && r.0.trxCounter == st.trxCounter + |q|
            && (NotCached(st, oids) <==> PendingRead(requester, oids) in r.0.pendingReads)
  {
    var q := st.pendingReads + [PendingRead(requester, oids)];
    var st1 := st.(pendingReads := q);
    PendingReadsKept(st1);
    assert q[|q| - 1] == PendingRead(requester, oids);
    assert NotCached(st1, oids) == NotCached(st, oids);
    CheckPendingReads(st1)
  }

  /** The transaction a read hands to its client: every requested oid filled
      from the cache, an empty write set, status Executing. */
  function Executable(t: Transaction, cache: map<Oid, Snapshot>): (e: Transaction)
    requires t.readSet.Keys <= cache.Keys
    ensures e.tid == t.tid && e.timestamp == t.timestamp && e.clerk == t.clerk
    ensures e.readSet.Keys == t.readSet.Keys
    ensures forall k :: k in e.readSet ==> e.readSet[k] == Some(cache[k])
    ensures e.writeSet == map[] && e.status == Executing
  {
    t.(readSet := map k | k in t.readSet :: Some(cache[k]), writeSet := map[], status := Executing)
  }

  /** Every reply of a read gather is an objects map. */
  predicate ObjectAnswers(answers: seq<Answer>) {
    forall i :: 0 <= i < |answers| ==> answers[i].reply.ObjectsReply?
  }

  /** Answer `i` carries a snapshot of `k`. */
  predicate Carries(answers: seq<Answer>, i: int, k: Oid) {
    0 <= i < |answers| && answers[i].reply.ObjectsReply? && k in answers[i].reply.objects
  }

  /** Answer `i` is the last one that carries a snapshot of `k`. */
  predicate LastCarrier(answers: seq<Answer>, i: int, k: Oid) {
    Carries(answers, i, k) && forall j :: i < j < |answers| ==> !Carries(answers, j, k)
  }

  /** No answer carries a snapshot of `k`. */
  predicate NoCarrier(answers: seq<Answer>, k: Oid) {
    forall j :: 0 <= j < |answers| ==> !Carries(answers, j, k)
  }

  /** The cache after `update`-ing it with each answer in arrival order: an
      oid takes its snapshot from the last answer that carries it, and keeps
      its cached one when no answer does. */
  function MergeAnswers(cache: map<Oid, Snapshot>, answers: seq<Answer>): (r: map<Oid, Snapshot>)
    requires ObjectAnswers(answers)
    ensures forall k :: k in r <==> k in cache || !NoCarrier(answers, k)
    ensures forall i, k :: LastCarrier(answers, i, k) ==> k in r && r[k] == answers[i].reply.objects[k]
    ensures forall k :: k in cache && NoCarrier(answers, k) ==> r[k] == cache[k]
    decreases |answers|
  {
    if answers == [] then cache
    else
      var n := |answers| - 1;
      var prev := MergeAnswers(cache, answers[..n]);
      MergeAnswersStep(cache, answers, prev);
      MergeObjects(prev, answers[n].reply.objects)
  }

  /** The last answer of a gather is merged over the earlier ones. */
  lemma MergeAnswersStep(cache: map<Oid, Snapshot>, answers: seq<Answer>, prev: map<Oid, Snapshot>)
    requires ObjectAnswers(answers) && answers != []
    requires var a := answers[..|answers| - 1];
             && (forall k :: k in prev <==> k in cache || !NoCarrier(a, k))
             && (forall i, k :: LastCarrier(a, i, k) ==> k in prev && prev[k] == a[i].reply.objects[k])
             && (forall k :: k in cache && NoCarrier(a, k) ==> prev[k] == cache[k])
    ensures var r := MergeObjects(prev, answers[|answers| - 1].reply.objects);
            && (forall k :: k in r <==> k in cache || !NoCarrier(answers, k))
            && (forall i, k :: LastCarrier(answers, i, k) ==> k in r && r[k] == answers[i].reply.objects[k])
            && (forall k :: k in cache && NoCarrier(answers, k) ==> r[k] == cache[k])
  {
    var n := |answers| - 1;
    var a := answers[..n];
    var last := answers[n].reply.objects;
    assert forall j, k :: 0 <= j < n ==> (Carries(a, j, k) <==> Carries(answers, j, k));
    forall k ensures !NoCarrier(answers, k) <==> !NoCarrier(a, k) || k in last {
      if k in last { assert Carries(answers, n, k); }
    }
    forall i, k | LastCarrier(answers, i, k) && i < n ensures LastCarrier(a, i, k) && k !in last {
      assert !Carries(answers, n, k);
    }
  }

  /** `dict.update` on the object cache. */
  function MergeObjects(cache: map<Oid, Snapshot>, update: map<Oid, Snapshot>): (r: map<Oid, Snapshot>)
    ensures r.Keys == cache.Keys + update.Keys
    ensures forall k :: k in update ==> r[k] == update[k]
    ensures forall k :: k in cache && k !in update ==> r[k] == cache[k]
  {
    cache + update
  }

  /** `read_done`: merge every answer into the cache. If every requested oid
      is then cached, the client gets the transaction filled from the cache
      with an empty write set and status Executing; otherwise it gets false. */
  function ReadDone(st: ClerkState, g: Transaction, answers: seq<Answer>): (r: (ClerkState, Outbox))
    requires g.tid in st.trxReading && ObjectAnswers(answers)
    ensures r.0 == st.(trxReading := st.trxReading - {g.tid}, objectCache := MergeAnswers(st.objectCache, answers))
    ensures var w := st.trxReading[g.tid];
            if w.trx.readSet.Keys <= r.0.objectCache.Keys
            then r.1 == multiset{Send(w.client, TrxReply(Executable(w.trx, r.0.objectCache)))}
            else r.1 == multiset{Send(w.client, BoolReply(false))}
  {
    var w := st.trxReading[g.tid];
    var cache := MergeAnswers(st.objectCache, answers);
    var st' := st.(trxReading := st.trxReading - {g.tid}, objectCache := cache);
    if w.trx.readSet.Keys <= cache.Keys then (st', multiset{Send(w.client, TrxReply(Executable(w.trx, cache)))})
    else (st', multiset{Send(w.client, BoolReply(false))})
  }

  // ---------------------------------------------------- prepare and commit

  /** `start_prepare`: stamp the transaction with the clock reading `now` and
      scatter Prepare to the shards of its read set. When that mapping is
      incomplete the handler raises before changing anything. */
  function StartPrepare(st: ClerkState, client: Addr, trx: Transaction, now: int): (r: (ClerkState, Outbox))
    ensures Unmapped(st.serverCache, trx.readSet.Keys) ==> r == (st, multiset{})
    ensures !Unmapped(st.serverCache, trx.readSet.Keys) ==>
              var t := trx.(timestamp := Some(now));
              && r.0 == st.(trxPreparing := st.trxPreparing[trx.tid := Waiting(client, t)])
              && r.1 == multiset{Send(AggregatorName(trx.tid, "p"),
                                      Scatter(t, WhoServesFor(st.serverCache, trx.readSet.Keys).groups, PrepareReq))}
  {
    var t := trx.(timestamp := Some(now));
    match WhoServesFor(st.serverCache, t.readSet.Keys)
    case Pending => (st, multiset{})
    case Ready(groups) =>
      (st.(trxPreparing := st.trxPreparing[t.tid := Waiting(client, t)]),
       multiset{Send(AggregatorName(t.tid, "p"), Scatter(t, groups, PrepareReq))})
  }

  /** Shard `a` sent at least one truthy reply. */
  predicate VotedYes(answers: seq<Answer>, a: Addr) {
    exists i :: 0 <= i < |answers| && answers[i].from == a && Truthy(answers[i].reply)
  }

  /** The shards whose reply was a yes vote, in arrival order. */
  function YesVoters(answers: seq<Answer>): (r: seq<Addr>)
    ensures forall a :: a in r <==> VotedYes(answers, a)
    ensures |r| <= |answers|
  {
    if answers == [] then []
    else
      assert forall i :: 1 <= i < |answers| ==> answers[i] == answers[1..][i - 1];
      (if Truthy(answers[0].reply) then [answers[0].from] else []) + YesVoters(answers[1..])
  }

  /** Aborting after a failed vote: each yes voter gets an Abort and the
      client gets false once. */
  lemma AbortsReachYesVoters(answers: seq<Answer>, trx: Transaction, client: Addr)
    ensures var out := Broadcast(YesVoters(answers), Request(AbortReq, trx)) + multiset{Send(client, BoolReply(false))};
            && out[Send(client, BoolReply(false))] == 1
            && (forall a :: out[Send(a, Request(AbortReq, trx))] > 0 <==>
                  VotedYes(answers, a))
            && (forall a :: out[Send(a, Request(AbortReq, trx))] <= multiset(Aggregator.Senders(answers))[a])
            && (forall x :: x in out ==> x == Send(client, BoolReply(false)) || x.msg == Request(AbortReq, trx))
  {
    var m := Request(AbortReq, trx);
    var b := Broadcast(YesVoters(answers), m);
    AbortsPerShard(answers, m);
    OneMoreReply(b, Send(client, BoolReply(false)), m);
  }

  /** Adding one send of another message to sends all of message `m`
      leaves the count of every `m` send alone. */
  lemma OneMoreReply(b: Outbox, f: Send, m: Msg)
    requires forall x :: x in b ==> x.msg == m
    requires f.msg != m
    ensures (b + multiset{f})[f] == 1
    ensures forall a :: (b + multiset{f})[Send(a, m)] == b[Send(a, m)]
    ensures forall x :: x in b + multiset{f} ==> x == f || x.msg == m
  {
    assert f !in b;
  }

  /** One message per yes vote: a shard gets it exactly when it voted yes,
      and at most as often as it answered. */
  lemma AbortsPerShard(answers: seq<Answer>, m: Msg)
    ensures forall a :: Broadcast(YesVoters(answers), m)[Send(a, m)] > 0 <==>
              VotedYes(answers, a)
    ensures forall a :: Broadcast(YesVoters(answers), m)[Send(a, m)] <= multiset(Aggregator.Senders(answers))[a]
  {
    var voters := YesVoters(answers);
    forall a ensures Broadcast(voters, m)[Send(a, m)] > 0 <==> a in voters {
      assert Broadcast(voters, m)[Send(a, m)] == multiset(voters)[a];
    }
    forall a ensures Broadcast(voters, m)[Send(a, m)] <= multiset(Aggregator.Senders(answers))[a] {
      assert Broadcast(voters, m)[Send(a, m)] == multiset(voters)[a];
      YesVotersBounded(answers, a);
    }
  }

  /** A shard is listed as a yes voter at most as often as it answered. */
  lemma {:induction false} YesVotersBounded(answers: seq<Answer>, a: Addr)
    ensures multiset(YesVoters(answers))[a] <= multiset(Aggregator.Senders(answers))[a]
    decreases |answers|
  {
    if answers != [] {
      YesVotersBounded(answers[1..], a);
      assert Aggregator.Senders(answers) == [answers[0].from] + Aggregator.Senders(answers[1..]);
    }
  }

  /** Every shard voted yes. */
  predicate AllYes(answers: seq<Answer>) {
    forall i :: 0 <= i < |answers| ==> Truthy(answers[i].reply)
  }

  /** `prepare_done`. On any no vote, Abort goes to each shard that voted
      yes and the client gets false. On all yes, the status becomes
      Preparing and Commit is scattered to the shards of the read set (if
      that mapping is incomplete the handler raises after dropping the
      entry). */
  function PrepareDone(st: ClerkState, g: Transaction, answers: seq<Answer>): (r: (ClerkState, Outbox))
    requires g.tid in st.trxPreparing
    ensures r.0.trxPreparing == st.trxPreparing - {g.tid}
    ensures r.0 == st.(trxPreparing := r.0.trxPreparing, trxPrepared := r.0.trxPrepared)
    ensures r.0.trxReading == st.trxReading && r.0.objectCache == st.objectCache
    ensures var w := st.trxPreparing[g.tid];
            !AllYes(answers) ==>
              && r.0.trxPrepared == st.trxPrepared
              && r.1[Send(w.client, BoolReply(false))] == 1
              && (forall a :: r.1[Send(a, Request(AbortReq, w.trx))] > 0 <==>
                    VotedYes(answers, a))
              && (forall a :: r.1[Send(a, Request(AbortReq, w.trx))] <= multiset(Aggregator.Senders(answers))[a])
              && (forall x :: x in r.1 ==> x == Send(w.client, BoolReply(false)) || x.msg == Request(AbortReq, w.trx))
    ensures var w := st.trxPreparing[g.tid];
            var t := w.trx.(status := Preparing);
            AllYes(answers) && !Unmapped(st.serverCache, t.readSet.Keys) ==>
              && r.0.trxPrepared == st.trxPrepared[t.tid := Waiting(w.client, t)]
              && r.1 == multiset{Send(AggregatorName(t.tid, "c"),
                                      Scatter(t, WhoServesFor(st.serverCache, t.readSet.Keys).groups, CommitReq))}
    ensures var t := st.trxPreparing[g.tid].trx;
            AllYes(answers) && Unmapped(st.serverCache, t.readSet.Keys) ==>
              r.0.trxPrepared == st.trxPrepared && r.1 == multiset{}
  {
    var w := st.trxPreparing[g.tid];
    var st1 := st.(trxPreparing := st.trxPreparing - {g.tid});
    if !AllYes(answers) then
      AbortsReachYesVoters(answers, w.trx, w.client);
      (st1, Broadcast(YesVoters(answers), Request(AbortReq, w.trx)) + multiset{Send(w.client, BoolReply(false))})
    else
      var t := w.trx.(status := Preparing);
      match WhoServesFor(st.serverCache, t.readSet.Keys)
      case Pending => (st1, multiset{})
      case Ready(groups) =>
        (st1.(trxPrepared := st1.trxPrepared[t.tid := Waiting(w.client, t)]),
         multiset{Send(AggregatorName(t.tid, "c"), Scatter(t, groups, CommitReq))})
  }

  /** `commit_done`: the client gets true, whatever the shards answered. */
  function CommitDone(st: ClerkState, g: Transaction, answers: seq<Answer>): (r: (ClerkState, Outbox))
    requires g.tid in st.trxPrepared
    ensures r.0 == st.(trxPrepared := st.trxPrepared - {g.tid})
    ensures r.1 == multiset{Send(st.trxPrepared[g.tid].client, BoolReply(true))}
  {
    (st.(trxPrepared := st.trxPrepared - {g.tid}), multiset{Send(st.trxPrepared[g.tid].client, BoolReply(true))})
  }

  // ------------------------------------------------------------ dispatch

  /** The message can be handled without the handler raising: a Gather for
      a tid the clerk is waiting on in that phase (read replies being
      objects maps), an invalidation of a cached oid. */
  predicate Accepts(st: ClerkState, m: Msg) {
    match m
    case Gather(g, answers) =>
      (g.status == Reading ==> g.tid in st.trxReading && ObjectAnswers(answers)) &&
      (g.status == Executing ==> g.tid in st.trxPreparing) &&
      (g.status == Preparing ==> g.tid in st.trxPrepared)
    case CacheInvalidate(oid) => oid in st.objectCache
    case _ => true
  }

  /** `receiveMessage`; `now` is the clock reading a commit request is
      stamped with. */
  function Receive(st: ClerkState, m: Msg, sender: Addr, now: int): (r: (ClerkState, Outbox))
    requires Accepts(st, m)
    ensures m.CacheInvalidate? ==> r == (st.(objectCache := st.objectCache - {m.oid}), multiset{})
    ensures m.WhoServes? ==> r == CheckPendingReads(st.(serverCache := Merge(st.serverCache, m.serverMap)))
    ensures m.Read? ==> r == Read(st, sender, m.oids)
    ensures m.ClerkCommit? ==> r == StartPrepare(st, sender, m.trx, now)
    ensures m.ClerkView? ==> r.0 == st.(directory := Some(m.directory), keySpace := Some(m.keySpace))
                             && r.1 == multiset{Send(m.directory, RegisterListener), Send(sender, BoolReply(true))}
    ensures m.Gather? && m.trx.status == Reading ==> r == ReadDone(st, m.trx, m.answers)
    ensures m.Gather? && m.trx.status == Executing ==> r == PrepareDone(st, m.trx, m.answers)
    ensures m.Gather? && m.trx.status == Preparing ==> r == CommitDone(st, m.trx, m.answers)
    ensures m.Gather? && m.trx.status == Committed ==> r == (st, multiset{})
  {
    match m
    case ClerkView(directory, keySpace) =>
      (st.(directory := Some(directory), keySpace := Some(keySpace)),
       multiset{Send(directory, RegisterListener), Send(sender, BoolReply(true))})
    case Read(oids) => Read(st, sender, oids)
    case ClerkCommit(trx) => StartPrepare(st, sender, trx, now)
    case Gather(g, answers) =>
      (match g.status
       case Reading => ReadDone(st, g, answers)
       case Executing => PrepareDone(st, g, answers)
       case Preparing => CommitDone(st, g, answers)
       case Committed => (st, multiset{}))
    case WhoServes(update) => CheckPendingReads(st.(serverCache := Merge(st.serverCache, update)))
    case CacheInvalidate(oid) => (st.(objectCache := st.objectCache - {oid}), multiset{})
    case _ => (st, multiset{})
  }

  // ------------------------------------------------------------- lemmas

  /** Two read attempts in a row get different tids, whether or not the
      first one started. */
  lemma SuccessiveReadsDistinctTids(st: ClerkState, a: Addr, oids: set<Oid>, b: Addr, oids': set<Oid>)
    ensures var st1 := StartRead(st, a, oids).0;
            ReadTrx(st, st.trxCounter, oids).tid != ReadTrx(st1, st1.trxCounter, oids').tid
  {
    var st1 := StartRead(st, a, oids).0;
    if ReadTrx(st, st.trxCounter, oids).tid == ReadTrx(st1, st1.trxCounter, oids').tid {
      TidInjective(st.name, st.trxCounter, st.trxCounter + 1);
    }
  }

  /** A read whose oids are all cached starts, but scatters to no shard:
      its aggregator then never gathers, so the read never completes. */
  lemma AllCachedReadAsksNoShard(st: ClerkState, requester: Addr, oids: set<Oid>, incoming: seq<Answer>)
    requires oids <= st.objectCache.Keys
    ensures StartRead(st, requester, oids).2
    ensures ReadLaunch(st, st.trxCounter, oids).msg.shardMap == map[]
    ensures var x := ReadLaunch(st, st.trxCounter, oids);
            var agg := Aggregator.ScatterStep(Aggregator.Init(), x.msg.trx, x.msg.shardMap, x.msg.kind, st.address).0;
            Aggregator.Replies(agg, incoming).1 == multiset{}
  {
    assert oids - st.objectCache.Keys == {};
    NothingToLookUp(st.serverCache);
    var x := ReadLaunch(st, st.trxCounter, oids);
    Aggregator.NoGatherWithoutShards(x.msg.trx, x.msg.kind, st.address, incoming);
  }

  /** The Gather that comes back for a started read carries the copy its
      Scatter sent, whose status Reading routes it to `read_done`, for the
      transaction the attempt recorded under that tid. */
  lemma ReadGatherHandledAsReadDone(st: ClerkState, requester: Addr, oids: set<Oid>, answers: seq<Answer>,
                                    sender: Addr, now: int)
    requires !NotCached(st, oids) && ObjectAnswers(answers)
    ensures var x := ReadLaunch(st, st.trxCounter, oids);
            Aggregator.ScatterStep(Aggregator.Init(), x.msg.trx, x.msg.shardMap, x.msg.kind, st.address).0.trx
              == Some(x.msg.trx)
    ensures var s := StartRead(st, requester, oids).0;
            var g := ReadLaunch(st, st.trxCounter, oids).msg.trx;
            && s.trxReading[g.tid] == Waiting(requester, ReadTrx(st, st.trxCounter, oids))
            && Accepts(s, Gather(g, answers))
            && Receive(s, Gather(g, answers), sender, now) == ReadDone(s, g, answers)
  {
  }

  /** Resolving no oids groups nothing. */
  lemma NothingToLookUp(serverCache: map<Oid, Addr>)
    ensures WhoServesFor(serverCache, {}) == Ready(map[])
  {
    var g := WhoServesFor(serverCache, {}).groups;
    if forall a :: a !in g {
      assert g == map[];
    } else {
      assert false;
    }
  }

  /** Prepare and commit are routed by the read set only: a written oid
      outside the read set is in no shard's request. */
  lemma WritesOutsideReadSetReachNoShard(st: ClerkState, t: Transaction, kind: RequestKind, asker: Addr, x: Send)
    requires !Unmapped(st.serverCache, t.readSet.Keys)
    requires x in Aggregator.ScatterStep(Aggregator.Init(), t,
                                          WhoServesFor(st.serverCache, t.readSet.Keys).groups, kind, asker).1
    ensures x.msg.trx.writeSet.Keys <= t.readSet.Keys
  {
  }

  /** A queued read whose uncached oids all become mapped by a directory
      push is started by that push and leaves the queue. */
  lemma PushStartsMappedRead(st: ClerkState, update: map<Oid, Addr>, req: PendingRead)
    requires req in st.pendingReads
    requires forall o :: o in req.oids && o !in st.objectCache ==> o in update
    ensures req !in Receive(st, WhoServes(update), "", 0).0.pendingReads
  {
    var st1 := st.(serverCache := Merge(st.serverCache, update));
    assert !NotCached(st1, req.oids);
    PendingReadsKept(st1);
  }

  /** A started read whose gather carries every requested oid that was not
      cached answers the client with the transaction filled from the cache;
      when some requested oid is neither cached nor carried, the client gets
      false. Either way the read is no longer in flight. */
  lemma ReadAnsweredIffCovered(st: ClerkState, requester: Addr, oids: set<Oid>, answers: seq<Answer>)
    requires !NotCached(st, oids) && ObjectAnswers(answers)
    ensures var t := ReadTrx(st, st.trxCounter, oids);
            var d := ReadDone(StartRead(st, requester, oids).0, t, answers);
            && t.tid !in d.0.trxReading
            && ((forall o :: o in oids ==> o in st.objectCache || !NoCarrier(answers, o)) ==>
                  && oids <= d.0.objectCache.Keys
                  && d.1 == multiset{Send(requester, TrxReply(Executable(t, d.0.objectCache)))})
            && (!(forall o :: o in oids ==> o in st.objectCache || !NoCarrier(answers, o)) ==>
                  d.1 == multiset{Send(requester, BoolReply(false))})
  {
    var t := ReadTrx(st, st.trxCounter, oids);
    var s := StartRead(st, requester, oids).0;
    assert s.trxReading[t.tid] == Waiting(requester, t);
    var cache := MergeAnswers(s.objectCache, answers);
    assert s.objectCache == st.objectCache;
    assert t.readSet.Keys == oids;
    if forall o :: o in oids ==> o in st.objectCache || !NoCarrier(answers, o) {
      forall o | o in oids ensures o in cache {
        assert o in st.objectCache || !NoCarrier(answers, o);
      }
    } else {
      var o :| o in oids && o !in st.objectCache && NoCarrier(answers, o);
      assert o !in cache;
    }
  }

  /** A commit request whose read set is mapped: when every shard votes yes,
      the commit gather answers the client true; on any no vote the client
      is answered false at once. Either way the clerk keeps no entry for the
      tid in the phases it went through. */
  lemma CommitRequestOutcome(st: ClerkState, client: Addr, trx: Transaction, now: int,
                             votes: seq<Answer>, acks: seq<Answer>)
    requires !Unmapped(st.serverCache, trx.readSet.Keys)
    requires trx.tid !in st.trxPrepared
    ensures var p := StartPrepare(st, client, trx, now).0;
            var d := PrepareDone(p, trx, votes);
            && trx.tid !in d.0.trxPreparing
            && (!AllYes(votes) ==> d.1[Send(client, BoolReply(false))] == 1 && trx.tid !in d.0.trxPrepared)
            && (AllYes(votes) ==>
                  var c := CommitDone(d.0, trx, acks);
                  && c.1 == multiset{Send(client, BoolReply(true))}
                  && trx.tid !in c.0.trxPreparing && trx.tid !in c.0.trxPrepared)
  {
    var p := StartPrepare(st, client, trx, now).0;
    assert p.trxPreparing[trx.tid].client == client;
    assert p.trxPrepared == st.trxPrepared;
  }
}

=== FILE: directory.dfy ===
/**
 The directory server: it holds the shard map `oid -> server` and the clerks
 that listen for changes to it, merges every update into the map and pushes
 the merged map to all listeners.
 */
module Directory {
  import opened Types

  datatype DirectoryState = DirectoryState(serverMap: map<Oid, Addr>, listeners: seq<Addr>)

  /** A fresh directory: an empty map and no listeners. */
  function Init(): (d: DirectoryState)
    ensures d.serverMap == map[] && d.listeners == []
  {
    DirectoryState(map[], [])
  }

  /** `RegisterListener`: the sender is appended to the listeners (again, if
      it was already one) and is sent the current map. */
  function RegisterListener(d: DirectoryState, sender: Addr): (r: (DirectoryState, Outbox))
    ensures r.0.serverMap == d.serverMap
    ensures r.0.listeners == d.listeners + [sender]
    ensures r.1 == multiset{Send(sender, WhoServes(d.serverMap))}
  {
    (d.(listeners := d.listeners + [sender]), multiset{Send(sender, WhoServes(d.serverMap))})
  }

  /** `WhoServes(update)`: merge the update into the map (last writer wins),
      push the merged map once to every listener entry, then answer the
      sender true. */
  function WhoServesUpdate(d: DirectoryState, update: map<Oid, Addr>, sender: Addr): (r: (DirectoryState, Outbox))
    ensures r.0.listeners == d.listeners
    ensures r.0.serverMap.Keys == d.serverMap.Keys + update.Keys
    ensures forall o :: o in update ==> r.0.serverMap[o] == update[o]
    ensures forall o :: o in d.serverMap && o !in update ==> r.0.serverMap[o] == d.serverMap[o]
    ensures forall a :: r.1[Send(a, WhoServes(r.0.serverMap))] == multiset(d.listeners)[a]
    ensures r.1[Send(sender, BoolReply(true))] == 1
    ensures |r.1| == |d.listeners| + 1
    ensures forall x :: x in r.1 ==> x == Send(sender, BoolReply(true)) || x.msg == WhoServes(r.0.serverMap)
  {
    var merged := Merge(d.serverMap, update);
    (d.(serverMap := merged),
     Broadcast(d.listeners, WhoServes(merged)) + multiset{Send(sender, BoolReply(true))})
  }

  /** `receiveMessage`; other messages are ignored (the timestamp request is
      outside this model). */
  function Receive(d: DirectoryState, m: Msg, sender: Addr): (r: (DirectoryState, Outbox))
    ensures !m.RegisterListener? && !m.WhoServes? ==> r == (d, multiset{})
    ensures m.RegisterListener? ==> r == RegisterListener(d, sender)
    ensures m.WhoServes? ==> r == WhoServesUpdate(d, m.serverMap, sender)
    ensures m.RegisterListener? ==> r.0.listeners == d.listeners + [sender]
    ensures m.WhoServes? ==> r.0.listeners == d.listeners
    ensures d.serverMap.Keys <= r.0.serverMap.Keys
  {
    match m
    case RegisterListener => RegisterListener(d, sender)
    case WhoServes(update) => WhoServesUpdate(d, update, sender)
    case _ => (d, multiset{})
  }

  /** A clerk that registered is pushed every later update, and the pushed
      map carries the update's assignments. */
  lemma ListenerGetsLaterUpdates(d: DirectoryState, clerk: Addr, update: map<Oid, Addr>, sender: Addr)
    ensures var d1 := RegisterListener(d, clerk).0;
            var (d2, out) := WhoServesUpdate(d1, update, sender);
            && out[Send(clerk, WhoServes(d2.serverMap))] >= 1
            && forall o :: o in update ==> d2.serverMap[o] == update[o]
  {
    var d1 := RegisterListener(d, clerk).0;
    assert d1.listeners[|d1.listeners| - 1] == clerk;
    assert clerk in multiset(d1.listeners);
  }

  /** Applying the same update twice leaves the map as applying it once. */
  lemma WhoServesIdempotent(d: DirectoryState, update: map<Oid, Addr>, sender: Addr)
    ensures var d1 := WhoServesUpdate(d, update, sender).0;
            WhoServesUpdate(d1, update, sender).0 == d1
  {
    var m := WhoServesUpdate(d, update, sender).0.serverMap;
    assert forall o :: o in update ==> m[o] == update[o];
    assert Merge(m, update) == m;
  }
}

=== FILE: history.dfy ===
/**
 A shard's history of prepared transactions: a sequence kept sorted by
 timestamp, with the operations the shard uses on its sorted list —
 `bisect_key_left`, `add`, `index` and `remove`. A lookup searches only the
 entries with the argument's timestamp and matches them by tid (the class
 defines a hash by tid and nothing else).
 */
module History {
  import opened Types

  /** A transaction with a timestamp can be ordered in the history. */
  predicate Stamped(t: Transaction) {
    t.timestamp.Some?
  }

  /** The sort key of the history: the timestamp. */
  function Key(t: Transaction): int
    requires Stamped(t)
  {
    t.timestamp.value
  }

  /** Every entry has a key and the keys never decrease along the sequence. */
  predicate Sorted(h: seq<Transaction>) {
    && (forall i :: 0 <= i < |h| ==> Stamped(h[i]))
    && (forall i, j :: 0 <= i < j < |h| ==> Key(h[i]) <= Key(h[j]))
  }

  lemma SortedTail(h: seq<Transaction>)
    requires Sorted(h) && h != []
    ensures Sorted(h[1..])
  {
    assert forall i :: 0 <= i < |h| - 1 ==> h[1..][i] == h[i + 1];
  }

  /** `bisect_key_left(t)`: the first position whose key is not below `t`.
      Entries before it are strictly earlier; an entry with key `t` lies at
      or after it. */
  function BisectLeft(h: seq<Transaction>, t: int): (p: nat)
    requires Sorted(h)
    ensures p <= |h|
    ensures forall i :: 0 <= i < p ==> Key(h[i]) < t
    ensures forall i :: p <= i < |h| ==> t <= Key(h[i])
  {
    if h == [] || t <= Key(h[0]) then 0
    else
      SortedTail(h);
      1 + BisectLeft(h[1..], t)
  }

  /** `bisect_key_right(t)`: the first position whose key is above `t`; the
      sorted list's `add` inserts there, after every entry with the same key. */
  function BisectRight(h: seq<Transaction>, t: int): (p: nat)
    requires Sorted(h)
    ensures p <= |h|
    ensures forall i :: 0 <= i < p ==> Key(h[i]) <= t
    ensures forall i :: p <= i < |h| ==> t < Key(h[i])
  {
    if h == [] || t < Key(h[0]) then 0
    else
      SortedTail(h);
      1 + BisectRight(h[1..], t)
  }

  /** `add(x)`: the history with `x` inserted in timestamp order, after
      every entry with the same timestamp. */
  function Insert(h: seq<Transaction>, x: Transaction): (r: seq<Transaction>)
    requires Sorted(h) && Stamped(x)
    ensures Sorted(r)
    ensures |r| == |h| + 1
    ensures multiset(r) == multiset(h) + multiset{x}
    ensures exists p :: InsertedAt(h, x, p, r)
  {
    var p := BisectRight(h, Key(x));
    InsertAtSorted(h, p, x);
    InsertAtCounts(h, p, x);
    var r := h[..p] + [x] + h[p..];
    assert InsertedAt(h, x, p, r);
    r
  }

  /** `r` is `h` with `x` spliced in at `p`, after every entry whose
      timestamp is not larger and before every entry whose timestamp is. */
  predicate InsertedAt(h: seq<Transaction>, x: Transaction, p: int, r: seq<Transaction>)
    requires Sorted(h) && Stamped(x)
  {
    && 0 <= p <= |h|
    && r == h[..p] + [x] + h[p..]
    && r[p] == x
    && (forall i :: 0 <= i < p ==> Key(h[i]) <= Key(x))
    && (forall i :: p <= i < |h| ==> Key(x) < Key(h[i]))
  }

  lemma InsertAtSorted(h: seq<Transaction>, p: nat, x: Transaction)
    requires Sorted(h) && Stamped(x) && p <= |h|
    requires forall i :: 0 <= i < p ==> Key(h[i]) <= Key(x)
    requires forall i :: p <= i < |h| ==> Key(x) < Key(h[i])
    ensures Sorted(h[..p] + [x] + h[p..])
  {
    var r := h[..p] + [x] + h[p..];
    assert forall k :: 0 <= k < p ==> r[k] == h[k];
    assert r[p] == x;
    assert forall k :: p < k < |r| ==> r[k] == h[k - 1];
    forall i, j | 0 <= i < j < |r|
      ensures Key(r[i]) <= Key(r[j])
    {
      if j < p {
      } else if j == p {
      } else if i < p {
        assert Key(h[i]) <= Key(h[j - 1]);
      } else if i == p {
      } else {
        assert Key(h[i - 1]) <= Key(h[j - 1]);
      }
    }
  }

  lemma InsertAtCounts(h: seq<Transaction>, p: nat, x: Transaction)
    requires p <= |h|
    ensures multiset(h[..p] + [x] + h[p..]) == multiset(h) + multiset{x}
  {
    assert h == h[..p] + h[p..];
  }

  /** The entry is the one the sorted list looks for: same tid and the
      timestamp it is looked up under. */
  predicate Matches(e: Transaction, tid: string, ts: int) {
    e.tid == tid && e.timestamp == Some(ts)
  }

  /** Some entry carries this tid under this timestamp. */
  predicate Contains(h: seq<Transaction>, tid: string, ts: int) {
    exists i :: 0 <= i < |h| && Matches(h[i], tid, ts)
  }

  /** `index(trx)`: the sorted list searches only the run of entries whose
      timestamp equals the argument's, so it finds the first entry with both
      the tid and that timestamp; an entry with the tid under another
      timestamp is not found. */
  function IndexOf(h: seq<Transaction>, tid: string, ts: int): (r: Option<nat>)
    ensures r.None? <==> !Contains(h, tid, ts)
    ensures r.Some? ==> r.value < |h| && Matches(h[r.value], tid, ts)
    ensures r.Some? ==> forall j :: 0 <= j < r.value ==> !Matches(h[j], tid, ts)
  {
    if h == [] then None
    else if Matches(h[0], tid, ts) then Some(0)
    else
      match IndexOf(h[1..], tid, ts)
      case None =>
        assert forall i :: 1 <= i < |h| ==> h[i] == h[1..][i - 1];
        None
      case Some(i) => Some(i + 1)
  }

  /** `remove(trx)`: the history without the entry `index` finds. The sorted
      list raises when there is none. */
  function Remove(h: seq<Transaction>, tid: string, ts: int): (r: seq<Transaction>)
    requires Contains(h, tid, ts)
    ensures Sorted(h) ==> Sorted(r)
    ensures |r| == |h| - 1
    ensures IndexOf(h, tid, ts).Some?
    ensures r == h[..IndexOf(h, tid, ts).value] + h[IndexOf(h, tid, ts).value + 1..]
  {
    var i := IndexOf(h, tid, ts).value;
    var r := h[..i] + h[i + 1..];
    assert forall k :: 0 <= k < i ==> r[k] == h[k];
    assert forall k :: i <= k < |r| ==> r[k] == h[k + 1];
    r
  }

  /** Removing what was just inserted gives the history back, provided its
      tid was not there before. */
  lemma RemoveUndoesInsert(h: seq<Transaction>, x: Transaction)
    requires Sorted(h) && Stamped(x)
    requires !Contains(h, x.tid, Key(x))
    ensures Remove(Insert(h, x), x.tid, Key(x)) == h
  {
    var r := Insert(h, x);
    var p :| InsertedAt(h, x, p, r);
    assert Matches(r[p], x.tid, Key(x));
    var i := IndexOf(r, x.tid, Key(x)).value;
    assert i == p;
    DropInserted(h, p, x);
  }

  lemma DropInserted(h: seq<Transaction>, p: nat, x: Transaction)
    requires p <= |h|
    ensures var r := h[..p] + [x] + h[p..]; r[..p] + r[p + 1..] == h
  {
    var r := h[..p] + [x] + h[p..];
    assert r[..p] == h[..p];
    assert r[p + 1..] == h[p..];
    assert h == h[..p] + h[p..];
  }
}

=== FILE: naming.dfy ===
/**
 The names a clerk makes up: transaction ids `<clerk-name>-trx-<counter>` and
 the global names of the aggregators it creates. The counter is written in
 decimal, so distinct counters give distinct tids.
 */
module Naming {

  /** The decimal digit for `d`. */
  function Digit(d: nat): (c: char)
    requires d < 10
    ensures '0' <= c <= '9'
  {
    "0123456789"[d]
  }

  /** `str(n)` for a natural number: its decimal numeral. */
  function Decimal(n: nat): (s: string)
    ensures 1 <= |s|
    ensures n < 10 <==> |s| == 1
    ensures s[|s| - 1] == Digit(n % 10)
    decreases n
  {
    if n < 10 then [Digit(n)] else Decimal(n / 10) + [Digit(n % 10)]
  }

  lemma DigitInjective(a: nat, b: nat)
    requires a < 10 && b < 10
    requires Digit(a) == Digit(b)
    ensures a == b
  {
  }

  /** Different numbers have different numerals. */
  lemma {:induction false} DecimalInjective(a: nat, b: nat)
    requires Decimal(a) == Decimal(b)
    ensures a == b
    decreases a
  {
    var s := Decimal(a);
    DigitInjective(a % 10, b % 10);
    if 10 <= a {
      assert 10 <= b;
      assert Decimal(a / 10) == s[..|s| - 1] == Decimal(b / 10);
      DecimalInjective(a / 10, b / 10);
    }
  }

  /** The tid the clerk named `clerk` gives its transaction number `counter`. */
  function Tid(clerk: string, counter: nat): (tid: string)
    ensures |tid| == |clerk| + 5 + |Decimal(counter)|
    ensures tid[..|clerk|] == clerk
    ensures tid[|clerk|..|clerk| + 5] == "-trx-"
    ensures tid[|clerk| + 5..] == Decimal(counter)
  {
    clerk + "-trx-" + Decimal(counter)
  }

  /** One clerk never hands out the same tid for two counter values. */
  lemma TidInjective(clerk: string, a: nat, b: nat)
    requires Tid(clerk, a) == Tid(clerk, b)
    ensures a == b
  {
    DecimalInjective(a, b);
  }

  /** The global name of the aggregator a clerk creates for one phase
      ("r" read, "p" prepare, "c" commit) of one transaction. */
  function AggregatorName(tid: string, phase: string): (name: string)
    ensures |name| == 11 + |tid| + 1 + |phase|
    ensures name[..11] == "aggregator-"
    ensures name[11..11 + |tid|] == tid
    ensures name[11 + |tid|..] == "-" + phase
  {
    "aggregator-" + tid + "-" + phase
  }
}

=== FILE: server.dfy ===
/**
 A storage shard. It owns a store `oid -> (value, version, read stamp)`, the
 clerks subscribed to each oid for cache invalidation, and a history of
 prepared transactions sorted by timestamp. Its handlers certify a
 transaction against that history (prepare), apply it (commit) or drop it
 (abort). Each handler is a pure transition from the old state.
 */
module Server {
  import opened Types
  import opened History

  /** One stored object: its value, its write count, and the timestamp of the
      last committed transaction that read or wrote it. */
  datatype Entry = Entry(value: Value, version: nat, readStamp: int)

  datatype ServerState = ServerState(
    store: map<Oid, Entry>,
    cacheTable: map<Oid, seq<Addr>>,   // clerks to notify when the oid is written
    history: seq<Transaction>)         // prepared transactions, by timestamp

  /** A freshly created shard: empty store, no subscribers, empty history. */
  function Init(): (s: ServerState)
    ensures Valid(s) && s.store == map[] && s.cacheTable == map[] && s.history == []
  {
    ServerState(map[], map[], [])
  }

  /** The history invariant: sorted by timestamp, every entry prepared. */
  predicate HistoryOk(h: seq<Transaction>) {
    Sorted(h) && forall e :: e in h ==> e.status == Preparing
  }

  predicate Valid(s: ServerState) {
    HistoryOk(s.history)
  }

  /** Every history entry has its own tid. */
  predicate UniqueTids(h: seq<Transaction>) {
    forall i, j :: 0 <= i < |h| && 0 <= j < |h| && h[i].tid == h[j].tid ==> i == j
  }

  // ---------------------------------------------------------------- View

  /** `View(keys)`: the store becomes exactly `keys`, each at (0, 0, 0). */
  function View(s: ServerState, keys: set<Oid>): (r: ServerState)
    ensures r.store.Keys == keys
    ensures forall k :: k in keys ==> r.store[k] == Entry(0, 0, 0)
    ensures r.cacheTable == s.cacheTable && r.history == s.history
  {
    s.(store := map k | k in keys :: Entry(0, 0, 0))
  }

  /** A second `View` with the same keys changes nothing more. */
  lemma ViewIdempotent(s: ServerState, keys: set<Oid>)
    ensures View(View(s, keys), keys) == View(s, keys)
  {
  }

  // ---------------------------------------------------------- GetObjects

  /** The clerks subscribed to `o` (none when the oid has no list yet). */
  function Subscribers(table: map<Oid, seq<Addr>>, o: Oid): seq<Addr> {
    if o in table then table[o] else []
  }

  /** The read can be served: every read oid is stored, and there is a clerk
      to subscribe when there is anything to read. */
  predicate CanServe(s: ServerState, trx: Transaction) {
    && trx.readSet.Keys <= s.store.Keys
    && (|trx.readSet| > 0 ==> trx.clerk.Some?)
  }

  /** `get_objects`: `(value, version)` of every read oid, without the read
      stamp; the requesting clerk is appended to each oid's subscribers. */
  function GetObjects(s: ServerState, trx: Transaction): (r: (ServerState, map<Oid, Snapshot>))
    requires CanServe(s, trx)
    ensures r.1.Keys == trx.readSet.Keys
    ensures forall o :: o in r.1 ==> r.1[o].value == s.store[o].value && r.1[o].version == s.store[o].version
    ensures r.0.store == s.store && r.0.history == s.history
    ensures r.0.cacheTable.Keys == s.cacheTable.Keys + trx.readSet.Keys
    ensures forall o :: o in trx.readSet ==> r.0.cacheTable[o] == Subscribers(s.cacheTable, o) + [trx.clerk.value]
    ensures forall o :: o in s.cacheTable && o !in trx.readSet ==> r.0.cacheTable[o] == s.cacheTable[o]
  {
    var answer := map o | o in trx.readSet :: Snapshot(s.store[o].value, s.store[o].version);
    var table := map o | o in s.cacheTable.Keys + trx.readSet.Keys ::
      if o in trx.readSet then Subscribers(s.cacheTable, o) + [trx.clerk.value] else s.cacheTable[o];
    (s.(cacheTable := table), answer)
  }

  // ------------------------------------------------------------- Prepare

  /** `e` writes an oid that `trx` reads. */
  predicate WritesRead(e: Transaction, trx: Transaction) {
    !(e.writeSet.Keys !! trx.readSet.Keys)
  }

  /** `e` and `trx` conflict in either direction: one writes what the other reads. */
  predicate ReadWriteConflict(e: Transaction, trx: Transaction) {
    !(trx.writeSet.Keys !! e.readSet.Keys) || !(trx.readSet.Keys !! e.writeSet.Keys)
  }

  /** Backward check failure: an entry with a smaller timestamp writes an oid
      the transaction reads. */
  predicate EarlierConflict(h: seq<Transaction>, trx: Transaction)
    requires Sorted(h) && Stamped(trx)
  {
    exists i :: 0 <= i < |h| && Key(h[i]) < Key(trx) && WritesRead(h[i], trx)
  }

  /** Forward check failure: an entry with an equal or larger timestamp has a
      read/write conflict with the transaction. */
  predicate LaterConflict(h: seq<Transaction>, trx: Transaction)
    requires Sorted(h) && Stamped(trx)
  {
    exists i :: 0 <= i < |h| && Key(trx) <= Key(h[i]) && ReadWriteConflict(h[i], trx)
  }

  /** Every read oid is stored and carries the snapshot the read saw. */
  predicate ReadsStored(s: ServerState, trx: Transaction) {
    forall o :: o in trx.readSet ==> o in s.store && trx.readSet[o].Some?
  }

  /** Freshness check failure: a read oid has been written since the read
      (version moved) or read by a transaction with a larger timestamp. */
  predicate Stale(s: ServerState, trx: Transaction)
    requires ReadsStored(s, trx) && Stamped(trx)
  {
    exists o :: o in trx.readSet &&
      (Key(trx) < s.store[o].readStamp || trx.readSet[o].value.version != s.store[o].version)
  }

  /** What `prepare_trx` needs to run without raising: a timestamp, and, once
      the backward check has passed, a stored oid and a snapshot per read. */
  predicate CanPrepare(s: ServerState, trx: Transaction) {
    && Valid(s)
    && Stamped(trx)
    && (!EarlierConflict(s.history, trx) ==> ReadsStored(s, trx))
  }

  /** `prepare_trx`: split the history at `bisect_key_left(timestamp)` (an
      entry with the same timestamp falls on the later side), then run the
      backward, freshness and forward checks. On success the transaction is
      inserted with status Preparing; on failure nothing changes. */
  function Prepare(s: ServerState, trx: Transaction): (r: (ServerState, bool))
    requires CanPrepare(s, trx)
    ensures r.1 == !(EarlierConflict(s.history, trx) || Stale(s, trx) || LaterConflict(s.history, trx))
    ensures !r.1 ==> r.0 == s
    ensures r.1 ==> r.0.store == s.store && r.0.cacheTable == s.cacheTable
    ensures r.1 ==> multiset(r.0.history) == multiset(s.history) + multiset{trx.(status := Preparing)}
    ensures Valid(r.0)
  {
    var h := s.history;
    var p := BisectLeft(h, Key(trx));
    var earlier, later := h[..p], h[p..];
    EarlierSplit(h, p, trx);
    LaterSplit(h, p, trx);
    if exists e | e in earlier :: WritesRead(e, trx) then (s, false)
    else if Stale(s, trx) then (s, false)
    else if exists e | e in later :: ReadWriteConflict(e, trx) then (s, false)
    else
      var x := trx.(status := Preparing);
      InsertKeepsOk(h, x);
      (s.(history := Insert(h, x)), true)
  }

  /** Inserting a prepared, stamped entry keeps the history invariant. */
  lemma InsertKeepsOk(h: seq<Transaction>, x: Transaction)
    requires HistoryOk(h) && Stamped(x) && x.status == Preparing
    ensures HistoryOk(Insert(h, x))
  {
    var h' := Insert(h, x);
    forall e | e in h' ensures e.status == Preparing {
      assert e in multiset(h) + multiset{x};
    }
  }

  /** The entries before the bisection point are exactly those with a
      smaller timestamp. */
  lemma EarlierSplit(h: seq<Transaction>, p: nat, trx: Transaction)
    requires Sorted(h) && Stamped(trx) && p == BisectLeft(h, Key(trx))
    ensures EarlierConflict(h, trx) <==> exists e | e in h[..p] :: WritesRead(e, trx)
  {
    if EarlierConflict(h, trx) {
      var i :| 0 <= i < |h| && Key(h[i]) < Key(trx) && WritesRead(h[i], trx);
      assert h[..p][i] == h[i];
    }
    if e :| e in h[..p] && WritesRead(e, trx) {
      var i :| 0 <= i < p && h[..p][i] == e;
      assert Key(h[i]) < Key(trx) && WritesRead(h[i], trx);
    }
  }

  /** The entries from the bisection point on are exactly those with an
      equal or larger timestamp. */
  lemma LaterSplit(h: seq<Transaction>, p: nat, trx: Transaction)
    requires Sorted(h) && Stamped(trx) && p == BisectLeft(h, Key(trx))
    ensures LaterConflict(h, trx) <==> exists e | e in h[p..] :: ReadWriteConflict(e, trx)
  {
    if LaterConflict(h, trx) {
      LaterInSuffix(h, p, trx);
    }
    if e :| e in h[p..] && ReadWriteConflict(e, trx) {
      SuffixIsLater(h, p, trx, e);
    }
  }

  lemma LaterInSuffix(h: seq<Transaction>, p: nat, trx: Transaction)
    requires Sorted(h) && Stamped(trx) && p == BisectLeft(h, Key(trx))
    requires LaterConflict(h, trx)
    ensures exists e | e in h[p..] :: ReadWriteConflict(e, trx)
  {
    var i :| 0 <= i < |h| && Key(trx) <= Key(h[i]) && ReadWriteConflict(h[i], trx);
    assert h[p..][i - p] == h[i];
  }

  lemma SuffixIsLater(h: seq<Transaction>, p: nat, trx: Transaction, e: Transaction)
    requires Sorted(h) && Stamped(trx) && p == BisectLeft(h, Key(trx))
    requires e in h[p..] && ReadWriteConflict(e, trx)
    ensures LaterConflict(h, trx)
  {
    var k :| 0 <= k < |h| - p && h[p..][k] == e;
    assert Key(trx) <= Key(h[p + k]) && ReadWriteConflict(h[p + k], trx);
  }

  // -------------------------------------------------------------- Commit

  /** `index` finds the transaction (same tid, same timestamp) in the
      history and that entry is prepared. */
  predicate Committable(s: ServerState, trx: Transaction) {
    && Stamped(trx)
    && var i := IndexOf(s.history, trx.tid, Key(trx));
       i.Some? && s.history[i.value].status == Preparing
  }

  /** What `commit_trx` needs to run without raising: a timestamp to search
      a non-empty history with (an empty one answers ValueError, which is
      caught), and, once it has found the transaction, every read and
      written oid stored and a subscriber list for every written oid (it is
      cleared, not looked up). */
  predicate CanCommit(s: ServerState, trx: Transaction) {
    && (Stamped(trx) || s.history == [])
    && (Committable(s, trx) ==>
          && trx.readSet.Keys <= s.store.Keys
          && trx.writeSet.Keys <= s.store.Keys
          && trx.writeSet.Keys <= s.cacheTable.Keys)
  }

  /** One `CacheInvalidate(oid)` per subscriber-list entry of every written
      oid, visiting the oids in ascending order. */
  function Invalidations(written: set<Oid>, table: map<Oid, seq<Addr>>): (r: Outbox)
    requires written <= table.Keys
    ensures forall c, o :: r[Send(c, CacheInvalidate(o))] == if o in written then multiset(table[o])[c] else 0
    ensures forall x :: x in r ==> x.msg.CacheInvalidate? && x.msg.oid in written
    decreases written
  {
    if written == {} then multiset{}
    else
      var o := Least(written);
      Broadcast(table[o], CacheInvalidate(o)) + Invalidations(written - {o}, table)
  }

  /** `commit_trx`. Without a prepared history entry it answers false and
      changes nothing. Otherwise every read oid gets the transaction's
      timestamp as read stamp (assigned, not maxed), every written oid takes
      the new value with its version bumped, each subscriber of a written oid
      is sent one invalidation and the list is emptied, and the transaction
      leaves the history. */
  function Commit(s: ServerState, trx: Transaction): (r: (ServerState, bool, Outbox))
    requires CanCommit(s, trx)
    ensures !Committable(s, trx) ==> r == (s, false, multiset{})
    ensures Committable(s, trx) ==> r.1
    ensures Committable(s, trx) ==> r.0.store.Keys == s.store.Keys
    ensures Committable(s, trx) ==> forall o :: o in trx.writeSet ==>
              r.0.store[o] == Entry(trx.writeSet[o], s.store[o].version + 1, Key(trx))
    ensures Committable(s, trx) ==> forall o :: o in trx.readSet && o !in trx.writeSet ==>
              r.0.store[o] == Entry(s.store[o].value, s.store[o].version, Key(trx))
    ensures Committable(s, trx) ==> forall o :: o in s.store && o !in trx.readSet && o !in trx.writeSet ==>
              r.0.store[o] == s.store[o]
    ensures Committable(s, trx) ==> r.0.cacheTable.Keys == s.cacheTable.Keys
    ensures Committable(s, trx) ==> forall o :: o in trx.writeSet ==> r.0.cacheTable[o] == []
    ensures Committable(s, trx) ==> forall o :: o in s.cacheTable && o !in trx.writeSet ==>
              r.0.cacheTable[o] == s.cacheTable[o]
    ensures Committable(s, trx) ==>
              forall c, o :: r.2[Send(c, CacheInvalidate(o))] == (if o in trx.writeSet then multiset(s.cacheTable[o])[c] else 0)
    ensures forall x :: x in r.2 ==> x.msg.CacheInvalidate? && x.msg.oid in trx.writeSet
    ensures Committable(s, trx) ==> r.0.history == Remove(s.history, trx.tid, Key(trx))
    ensures Valid(s) ==> Valid(r.0)
  {
    if !Committable(s, trx) then (s, false, multiset{})
    else
      var t := Key(trx);
      var afterReads := map o | o in s.store ::
        if o in trx.readSet then s.store[o].(readStamp := t) else s.store[o];
      var afterWrites := map o | o in afterReads ::
        if o in trx.writeSet then Entry(trx.writeSet[o], afterReads[o].version + 1, t) else afterReads[o];
      var table := map o | o in s.cacheTable :: if o in trx.writeSet then [] else s.cacheTable[o];
      var h' := Remove(s.history, trx.tid, t);
      RemoveKeepsPrepared(s.history, trx.tid, t);
      (ServerState(afterWrites, table, h'), true, Invalidations(trx.writeSet.Keys, s.cacheTable))
  }

  lemma RemoveKeepsPrepared(h: seq<Transaction>, tid: string, ts: int)
    requires Contains(h, tid, ts)
    ensures forall e :: e in Remove(h, tid, ts) ==> e in h
  {
    var i := IndexOf(h, tid, ts).value;
    assert Remove(h, tid, ts) == h[..i] + h[i + 1..];
  }

  // --------------------------------------------------------------- Abort

  /** The history holds an entry `remove` finds: the tid under the
      transaction's timestamp. */
  predicate Abortable(s: ServerState, trx: Transaction) {
    Stamped(trx) && Contains(s.history, trx.tid, Key(trx))
  }

  /** `abort_trx`: drop the history entry with the tid and timestamp and
      answer true. The store and subscribers do not change. The sorted list
      raises when there is no such entry, so a second abort is not allowed. */
  function Abort(s: ServerState, trx: Transaction): (r: (ServerState, bool))
    requires Abortable(s, trx)
    ensures r.1
    ensures r.0.store == s.store && r.0.cacheTable == s.cacheTable
    ensures |r.0.history| == |s.history| - 1
    ensures r.0.history == Remove(s.history, trx.tid, Key(trx))
    ensures Valid(s) ==> Valid(r.0)
  {
    RemoveKeepsPrepared(s.history, trx.tid, Key(trx));
    (s.(history := Remove(s.history, trx.tid, Key(trx))), true)
  }

  // ------------------------------------------------------------ dispatch

  /** The message can be handled without the handler raising. */
  predicate Accepts(s: ServerState, m: Msg) {
    match m
    case Request(ObjectsReq, trx) => CanServe(s, trx)
    case Request(PrepareReq, trx) => CanPrepare(s, trx)
    case Request(CommitReq, trx) => CanCommit(s, trx)
    case Request(AbortReq, trx) => Abortable(s, trx)
    case _ => true
  }

  /** `receiveMessage`: every request is answered to its sender; a commit
      also sends its invalidations; unknown messages are ignored. */
  function Receive(s: ServerState, m: Msg, sender: Addr): (r: (ServerState, Outbox))
    requires Valid(s) && Accepts(s, m)
    ensures Valid(r.0)
    ensures !m.Request? && !m.View? ==> r == (s, multiset{})
    ensures m.Request? || m.View? ==> exists reply :: Send(sender, reply) in r.1 && !reply.CacheInvalidate?
    ensures m.Request? && m.kind == ObjectsReq ==>
              r == (GetObjects(s, m.trx).0, multiset{Send(sender, ObjectsReply(GetObjects(s, m.trx).1))})
    ensures m.Request? && m.kind == PrepareReq ==>
              r == (Prepare(s, m.trx).0, multiset{Send(sender, BoolReply(Prepare(s, m.trx).1))})
    ensures m.Request? && m.kind == CommitReq ==>
              r == (Commit(s, m.trx).0, Commit(s, m.trx).2 + multiset{Send(sender, BoolReply(Commit(s, m.trx).1))})
    ensures m.Request? && m.kind == AbortReq ==>
              r == (Abort(s, m.trx).0, multiset{Send(sender, BoolReply(true))})
    ensures m.View? ==> r == (View(s, m.keys), multiset{Send(sender, BoolReply(true))})
  {
    match m
    case Request(ObjectsReq, trx) =>
      var d := GetObjects(s, trx);
      (d.0, multiset{Send(sender, ObjectsReply(d.1))})
    case Request(PrepareReq, trx) =>
      var d := Prepare(s, trx);
      (d.0, multiset{Send(sender, BoolReply(d.1))})
    case Request(CommitReq, trx) =>
      var d := Commit(s, trx);
      var out := d.2 + multiset{Send(sender, BoolReply(d.1))};
      assert Send(sender, BoolReply(d.1)) in out;
      (d.0, out)
    case Request(AbortReq, trx) =>
      var d := Abort(s, trx);
      (d.0, multiset{Send(sender, BoolReply(d.1))})
    case View(keys) =>
      (View(s, keys), multiset{Send(sender, BoolReply(true))})
    case _ => (s, multiset{})
  }

  // ----------------------------------------------------- lemmas relating handlers

  /** Aborting a transaction right after its successful prepare restores
      the shard, when no entry with its tid was there before. */
  lemma AbortUndoesPrepare(s: ServerState, trx: Transaction)
    requires CanPrepare(s, trx) && Prepare(s, trx).1
    requires !Contains(s.history, trx.tid, Key(trx))
    ensures Abortable(Prepare(s, trx).0, trx)
    ensures Abort(Prepare(s, trx).0, trx) == (s, true)
  {
    var x := trx.(status := Preparing);
    assert Prepare(s, trx).0.history == Insert(s.history, x);
    RemoveUndoesInsert(s.history, x);
  }

  /** A clerk that read `o` is told when a later commit writes `o`. */
  lemma ReadThenCommitInvalidates(s: ServerState, rd: Transaction, trx: Transaction, o: Oid)
    requires CanServe(s, rd) && o in rd.readSet
    requires CanCommit(GetObjects(s, rd).0, trx) && Committable(s, trx)
    requires o in trx.writeSet
    ensures Commit(GetObjects(s, rd).0, trx).2[Send(rd.clerk.value, CacheInvalidate(o))] >= 1
  {
    var s1 := GetObjects(s, rd).0;
    var c := rd.clerk.value;
    assert s1.cacheTable[o] == Subscribers(s.cacheTable, o) + [c];
    assert s1.cacheTable[o][|s1.cacheTable[o]| - 1] == c;
    assert c in multiset(s1.cacheTable[o]);
  }

  /** With distinct tids in the history, a commit that succeeded cannot be
      replayed: the second one answers false and changes nothing. */
  lemma ReplayedCommitRejected(s: ServerState, trx: Transaction)
    requires CanCommit(s, trx) && Committable(s, trx)
    requires UniqueTids(s.history)
    ensures !Committable(Commit(s, trx).0, trx)
    ensures Commit(Commit(s, trx).0, trx) == (Commit(s, trx).0, false, multiset{})
  {
    var h := s.history;
    var i := IndexOf(h, trx.tid, Key(trx)).value;
    var h' := Commit(s, trx).0.history;
    assert h' == h[..i] + h[i + 1..];
  }
}

=== FILE: types.dfy ===
/**
 The shared vocabulary of the transaction store: object ids, actor addresses,
 the `Transaction` record carried between every component, the messages the
 actors exchange, and the outbox a handler produces.
 */
module Types {

  /** Object ids are the integers of the key space. */
  type Oid = int

  /** Values the clients store (the clients write integers). */
  type Value = int

  /** An actor is addressed by its global name (servers, aggregators, clerks). */
  type Addr = string

  datatype Option<+T> = None | Some(value: T)

  /** The `(value, version)` pair a read returns and a read set remembers. */
  datatype Snapshot = Snapshot(value: Value, version: nat)

  /** The status strings "R", "E", "P" and "C" of the source. */
  datatype Status = Reading | Executing | Preparing | Committed

  /**
   A transaction. `readSet` maps each id to `None` until it is read, then to
   the snapshot the read saw. `timestamp` is `None` until the prepare phase.
   `clerk` is the address of the clerk driving it: the clerk passes it as a
   fifth constructor argument and the server reads it, so it is a field here;
   `None` stands for a copy built without it.
   */
  datatype Transaction = Transaction(
    tid: string,
    readSet: map<Oid, Option<Snapshot>>,
    writeSet: map<Oid, Value>,
    timestamp: Option<int>,
    status: Status,
    clerk: Option<Addr>)

  /** The constructor: every new transaction starts in status Reading. */
  function NewTransaction(tid: string, readSet: map<Oid, Option<Snapshot>>, writeSet: map<Oid, Value>,
                          timestamp: Option<int>, clerk: Option<Addr>): (t: Transaction)
    ensures t.status == Reading
    ensures t.tid == tid && t.readSet == readSet && t.writeSet == writeSet
    ensures t.timestamp == timestamp && t.clerk == clerk
  {
    Transaction(tid, readSet, writeSet, timestamp, Reading, clerk)
  }

  /** The request a scatter fans out: Objects, Prepare, Commit or Abort. */
  datatype RequestKind = ObjectsReq | PrepareReq | CommitReq | AbortReq

  /** One reply collected by an aggregator, tagged with the shard that sent it. */
  datatype Answer = Answer(from: Addr, reply: Msg)

  /** Every message of the protocol, and the replies that travel back. */
  datatype Msg =
    | View(keys: set<Oid>)                                   // -> Server
    | Request(kind: RequestKind, trx: Transaction)           // Objects/Prepare/Commit/Abort -> Server
    | CacheInvalidate(oid: Oid)                              // Server -> Clerk
    | RegisterListener                                       // -> DirectoryServer
    | WhoServes(serverMap: map<Oid, Addr>)                   // <-> DirectoryServer, -> Clerk
    | ClerkView(directory: Addr, keySpace: int)              // -> Clerk
    | Read(oids: set<Oid>)                                   // -> Clerk
    | ClerkCommit(trx: Transaction)                          // -> Clerk
    | Scatter(trx: Transaction, shardMap: map<Addr, set<Oid>>, kind: RequestKind) // -> Aggregator
    | Gather(trx: Transaction, answers: seq<Answer>)         // Aggregator -> Clerk
    | BoolReply(ok: bool)
    | ObjectsReply(objects: map<Oid, Snapshot>)
    | TrxReply(trx: Transaction)

  /** Python truthiness of a reply: a boolean is itself, a dict is true when
      non-empty, every other object is true. */
  predicate Truthy(m: Msg) {
    match m
    case BoolReply(b) => b
    case ObjectsReply(o) => |o| > 0
    case _ => true
  }

  datatype Send = Send(to: Addr, msg: Msg)

  /** What one handler sends, kept as a multiset: the order of one
      handler's sends is not modelled, even to the same receiver. */
  type Outbox = multiset<Send>

  /** The same message sent to every address of a list, duplicates included. */
  function Broadcast(to: seq<Addr>, m: Msg): (r: Outbox)
    ensures forall a :: r[Send(a, m)] == multiset(to)[a]
    ensures forall x :: x in r ==> x.msg == m && x.to in to
    ensures |r| == |to|
  {
    if to == [] then multiset{}
    else
      assert to == [to[0]] + to[1..];
      multiset{Send(to[0], m)} + Broadcast(to[1..], m)
  }

  /** `dict.update` on a shard map: last writer wins per oid. */
  function Merge(current: map<Oid, Addr>, update: map<Oid, Addr>): (r: map<Oid, Addr>)
    ensures r.Keys == current.Keys + update.Keys
    ensures forall o :: o in update ==> r[o] == update[o]
    ensures forall o :: o in current && o !in update ==> r[o] == current[o]
  {
    current + update
  }

  /** The smallest element of a non-empty set of ids; used to visit a set of
      ids in a fixed order. */
  function Least(s: set<Oid>): (m: Oid)
    requires s != {}
    ensures m in s && forall x :: x in s ==> m <= x
  {
    LeastExists(s);
    var m :| m in s && forall x :: x in s ==> m <= x; m
  }

  /** `m` is a member of `s` and no member is smaller. */
  predicate IsLeast(m: Oid, s: set<Oid>) {
    m in s && forall x :: x in s ==> m <= x
  }

  lemma LeastExists(s: set<Oid>)
    requires s != {}
    ensures exists m :: m in s && forall x :: x in s ==> m <= x
  {
    var m := LeastWitness(s);
    assert IsLeast(m, s);
  }

  /** A least member, found by removing one member and comparing it with
      the least of the rest. */
  lemma LeastWitness(s: set<Oid>) returns (m: Oid)
    requires s != {}
    ensures IsLeast(m, s)
    decreases |s|
  {
    HasMember(s);
    var y :| y in s;
    var rest := s - {y};
    if rest == {} {
      assert s == {y};
      m := y;
    } else {
      var k := LeastWitness(rest);
      m := if y < k then y else k;
      LeastOfSplit(s, y, k, m);
    }
  }

  /** The smaller of `y` and the least of the rest is the least of all. */
  lemma LeastOfSplit(s: set<Oid>, y: Oid, k: Oid, m: Oid)
    requires y in s && IsLeast(k, s - {y})
    requires m == if y < k then y else k
    ensures IsLeast(m, s)
  {
    forall x | x in s ensures m <= x {
      if x != y {
        assert x in s - {y};
      }
    }
  }

  /** A non-empty set has a member (by extensionality). */
  lemma HasMember(s: set<Oid>)
    requires s != {}
    ensures exists y :: y in s
  {
    if forall y :: y !in s {
      assert false;
    }
  }
}
